=== FILE: README.md ===
# Anime catalog reconciliation, modelled in Dafny

This project models the two pieces of pure decision logic in the anime catalog
sync:

- **The reconciliation pass of `check1.py`.**
  - `generate_new_aid` picks the next id.
  - `perform_check` checks its inputs. It then splits the titles into new, unchanged and deleted names.
  - It appends the enriched records of new names under fresh ids and drops the records of deleted names.
  - Finally it decides between handing the catalog on unchanged and writing it back.
- **The record merger of `addon.py`.**
  - `fetch_complete_data` turns one folder entry and three optional per-source dicts (Jikan, Kitsu, IMDb) into one flat catalog record.
  - It also has the pure rules inside the three fetchers:
    - the YouTube watch-URL rewrite;
    - the related-title flattening;
    - the `", "` joins with their `"N/A"` fallback;
    - the similar-titles fallbacks;
    - the image-relay fallback.

Records are `map<string, Value>`, where `Value` is a decoded JSON value with
Python truthiness (`PyValue`). Everything the code gets over the network is an
input to the model:

- each service's answer for a title is a `Fetched` value or a response datatype;
- the relay is a function from URL to `RelayResponse`;
- the listing and the stored catalog text are `Option`s;
- the JSON decoder is a function that may fail;
- the enrichment `perform_check` calls is a function from listing entries to records.

Python sets have no defined iteration order. The order in which the new and
deleted names are visited is therefore a sequence parameter, required to
enumerate its set, and every property is proved for every such order.

Modules:
- `Wrappers`: `Option` and `Result`.
- `PyValue`: values, truthiness, `get`, `or`.
- `PyStr`: `find`, `in`, `split`, `join`, `strip` and an ASCII `capitalize`, with CPython's semantics.
- `Enrichers`: the fetchers and the relay.
- `Merger`: `fetch_complete_data`.
- `Reconciler`: `check1.py`.
- `Pipeline`: `perform_check` driving the real merger. It also holds the finding below and its correction.

Three behaviours of the code are worth stating up front:

- **Ids can be reused.** `generate_new_aid` only looks at the current catalog. Removing the record with the highest id and adding a title later hands that id out again. `GenerateNewAid` states exactly what the code computes: one more than the current maximum.
- **One id per title.** The code assigns one id per new *name*, and every record fetched for that name gets the same id (`Step`, `AppendNewNameBlock`). Different new names get distinct, increasing ids (`NameAidsIncrease`).
- **Source values overwrite defaults.** Each source's dict is spread over the merged literal. A source's own value, `"N/A"` included, replaces the literal's default. The three sources never share a key (`MergeNoOverride`).

## Model

| member | source | states |
|---|---|---|
| Enrichers.Upload | addon.py:5-22 | the relay's text is returned exactly on status 200; on any other status or a request error the original URL comes back unchanged |
| Enrichers.WatchIdAfterLastMarker | addon.py:140 | the watch id is the text after the last `"?v="` (the whole URL without one) and holds no further `"?v="` |
| Enrichers.EmbedVideoIdRecoversId | addon.py:140-141 | cutting the embed URL at `"/embed/"` and then at `'?'` gives back the watch id whenever the id has neither `'?'` nor `"/embed/"` |
| Enrichers.RewriteTrailer | addon.py:138-145 | the trailer and the banner are `"N/A"` exactly when the trailer is not a truthy YouTube URL; `RewriteTrailerSpec` gives their values |
| Enrichers.RewriteTrailerSpec | addon.py:138-145 | a truthy URL containing `youtube.com` becomes the embed URL of its watch id, with the thumbnail of that id as banner when the id has neither `'?'` nor `"/embed/"`, and neither is `"N/A"`; any other trailer gives `"N/A"` for both |
| Enrichers.KitsuTrailer | addon.py:56 | the Kitsu trailer is `"N/A"` exactly when `youtubeVideoId` is missing or empty, and the embed URL of the id otherwise |
| Enrichers.CollectRelated | addon.py:110-115 | the nested loop collects exactly the truthy entry names, relation by relation and entry by entry (the reference `RelatedNames`) |
| Enrichers.RelatedNamesEmptyIff | addon.py:110-116 | nothing is collected exactly when no entry of any relation has a truthy name |
| Enrichers.ListAnime | addon.py:99-118 | `listanime` is `"N/A"` exactly when the request failed or no entry name is truthy, and the list of collected names otherwise |
| Enrichers.JoinOrNA | addon.py:152-169 | genres, studios and producers are the `", "` join of the names, and `"N/A"` exactly when the join is empty or is `"N/A"` itself |
| Enrichers.SimilarAnime | addon.py:24-40 | with a truthy id and a non-empty answer the result is the `", "` join of the titles; it is `""` only for a single empty title, and `"N/A"` only without a truthy id or for a single `"N/A"` title |
| Enrichers.SimilarField | addon.py:171 | `sanime` is never empty; it is `"N/A"` exactly when there is no id or the titles join to nothing or to `"N/A"`; a failed request gives the error text, no titles give the "none found" text, and otherwise it is the `", "` join of the titles |
| Enrichers.SourceKeysDisjoint | addon.py:62-172 | the Jikan (addon.py:159-172), Kitsu (addon.py:62-69) and IMDb (addon.py:89-94) records have pairwise disjoint key sets |
| Enrichers.JikanRecordFields | addon.py:137-172 | Jikan's trailer and banner are the embed URL and the relayed thumbnail for a YouTube trailer and `"N/A"` otherwise; the poster is the relayed large image or `"N/A"`; `listanime` and `sanime` are the two follow-up answers |
| Enrichers.JikanRecord | addon.py:133-172 | the record has exactly Jikan's twelve keys with string media fields; `JikanRecordFields` gives the media, related and similar values |
| Enrichers.FetchJikan | addon.py:133-176 | a record exists exactly when the search found a match, and it has exactly Jikan's twelve keys with string media fields |
| Enrichers.KitsuRecord | addon.py:52-69 | the Kitsu record has exactly its six keys; the trailer follows `KitsuTrailer`, the poster and cover are relayed or `"N/A"`, and a missing synopsis reads "No synopsis available." |
| Enrichers.FetchKitsu | addon.py:46-72 | a record exists exactly when the search found a match |
| Enrichers.ImdbRecord | addon.py:81-94 | the IMDb record has exactly its four keys; `itrailer` is `"N/A"` and the cover is relayed even when it is the `"N/A"` default |
| Enrichers.FetchImdb | addon.py:79-97 | a record exists exactly when the search found a result; every failure is no data |
| PyStr.SplitLast | addon.py:140-141 | `s.split(sep)[-1]` has no `sep` in it and is what follows some occurrence of `sep` (the whole string when there is none) |
| PyStr.SplitJoin | addon.py:140-141 | splitting on a separator and joining with it gives the string back |
| PyStr.StripEmptyIffBlank | check1.py:40 | `s.strip() == ""` exactly when every character is whitespace |
| PyStr.Capitalize | addon.py:63 | `capitalize` keeps the length, agrees with the input up to ASCII case at every position, leaves no lower-case ASCII first letter and no upper-case ASCII letter after it |
| Merger.FolderAid | addon.py:194 | the id is truthy or `"N/A"`, and is the folder's `AID`, its `aid` or `"N/A"`; `FolderAidCases` gives which |
| Merger.FolderAidCases | addon.py:194 | `AID` is the folder's truthy `AID`, else its truthy `aid`, else `"N/A"`; falsy values fall through |
| Merger.BareFolderDefaults | addon.py:190-197 | a bare string `s` reads as `{"name": s}`: its name is `s` and `AID`, `LET`, `CNAME`, `CIDs` are all `"N/A"` |
| Merger.MergeFolderFields | addon.py:193-218 | the merged `NAME` is the folder's name; `AID`, `LET`, `CNAME` and `CIDs` come from the folder with their defaults; no source overrides any of them |
| Merger.Merge | addon.py:212-237 | every key of the dict literal is present, and IMDb's keys carry IMDb's values |
| Merger.MergeKeys | addon.py:212-237 | the merged keys are the literal's keys plus the present sources' keys, and nothing else |
| Merger.MergeAllAbsent | addon.py:199-233 | with no source the merge is the literal with every default: `NAME` and `jname` are the folder name, `type` is `"N/A"`, `airing` is `"false"`, `synopsis` is the stock sentence, and the three combined lists are `""` |
| Merger.JikanDefaults | addon.py:216-232 | without Jikan data `jname` is the folder name, `airing` is `"false"`, and every other Jikan field is `"N/A"` |
| Merger.KitsuDefaults | addon.py:220-233 | without Kitsu data the poster and trailer are `"N/A"` and the synopsis is the stock sentence |
| Merger.ImdbDefaults | addon.py:225-228 | without IMDb data the poster and trailer are `"N/A"` |
| Merger.ListsWhenAbsent | addon.py:205-209 | with no source all three combined lists are empty strings |
| Merger.PresentAllFalsy | addon.py:205-209 | `filter(None, ...)` drops every falsy value |
| Merger.PresentAllTruthy | addon.py:205-209 | `filter(None, ...)` keeps every non-empty string, in order |
| Merger.PresentAppend | addon.py:205-209 | `filter(None, ...)` of a concatenation is the concatenation of the filtered parts |
| Merger.PresentSingle | addon.py:205-209 | one value is kept, as its string, exactly when it is truthy |
| Merger.PresentThree | addon.py:208 | filtering three values keeps each truthy one, in order |
| Merger.PresentTwo | addon.py:205-209 | filtering two values keeps each truthy one, in order |
| Merger.PresentEmptyJoin | addon.py:205-209 | the `", "` join of the filtered values is empty exactly when every value is falsy |
| Merger.Posters | addon.py:208 | `posters` is empty exactly when no source has a truthy poster; `PostersInOrder` gives its value |
| Merger.Banners | addon.py:205 | `banners` is empty exactly when no source has a truthy banner; `BannersInOrder` gives its value |
| Merger.Trailers | addon.py:209 | `trailers` is empty exactly when no source has a truthy trailer; `TrailersInOrder` gives its value |
| Merger.PostersInOrder | addon.py:208 | for every presence pattern, `posters` joins with `", "` the truthy posters in the order Kitsu, Jikan, IMDb, skipping any missing or empty one; with all three truthy it is the three joined |
| Merger.BannersInOrder | addon.py:205 | for every presence pattern, `banners` joins Kitsu's `banner` then Jikan's `jbanner`, skipping a missing or empty one |
| Merger.TrailersInOrder | addon.py:209 | for every presence pattern, `trailers` joins `ktrailer` then `jtrailer`, skipping a missing or empty one |
| Merger.MergeMediaLists | addon.py:205-231 | with all sources present, the merged lists hold every non-empty medium in that fixed order, an `"N/A"` value included |
| Merger.MergeMediaListsAny | addon.py:205-237 | for records the fetchers build and every presence pattern of the three sources, the merged record's `posters`, `banners` and `trailers` are exactly the joined lists `Posters`, `Banners` and `Trailers` of the sources' fields, the spread of the source dicts not overriding them |
| Merger.MergeNoOverride | addon.py:234-236 | for records the fetchers build, each source's keys carry that source's values, and all six spread orders give the same record |
| Merger.SpreadOrderFree | addon.py:234-236 | spreading three dicts with pairwise disjoint keys keeps each dict's values, whatever the order |
| Merger.NoLowerCaseKeys | addon.py:212-237 | neither a lower-case `name` nor an `aid` is among the literal's keys or any fetcher's keys |
| Merger.Enrich | addon.py:193-237 | one iteration yields a record with every literal key, with the folder's name under `NAME`, and with neither `name` nor `aid` |
| Merger.MapFolders | addon.py:188-240 | the loop yields one result per folder, in folder order, the i-th being the iteration's result for the i-th folder |
| Merger.FetchCompleteData | addon.py:178-242 | one merged record per folder, in folder order, each with every base field and catalogued under its folder's name |
| Merger.FetchCompleteDataIsEnrich | addon.py:188-242 | the i-th record returned is the merge (`Enrich`) of the i-th folder with the services' answers for that folder's own name |
| Reconciler.Names | check1.py:51-53 | every name in the set is truthy, and every record's truthy name is in it; `NamesMember` gives both directions |
| Reconciler.NamesMember | check1.py:51-53 | a name is in the name set exactly when it is truthy and some record carries it under `name` |
| Reconciler.NamesOfAppend | check1.py:51-53 | the names of two lists together are the union of their names |
| Reconciler.Classify | check1.py:51-58 | new ∪ unchanged is the listing's names; unchanged ∪ deleted is the stored names; the three sets are pairwise disjoint and cover both |
| Reconciler.MaxAid | check1.py:19-22 | the maximum id, with a missing id read as 0, bounds every record's id and is some record's id |
| Reconciler.GenerateNewAid | check1.py:11-28 | 1 for an empty catalog; otherwise one more than some record's id, and above every id in the catalog |
| Reconciler.Stamp | check1.py:71-72 | every stamped record carries the new id and is otherwise the fetched record |
| Reconciler.EntriesNamed | check1.py:68 | the entries handed to the merger are exactly the listing entries with that name |
| Reconciler.EntriesNamedAppend | check1.py:68 | the filter goes entry by entry: the entries of a concatenation are those of each part, in listing order, duplicates kept |
| Reconciler.EntriesNamedSingle | check1.py:68 | one listing entry is selected exactly when it carries the name |
| Reconciler.Step | check1.py:67-75 | one name's iteration appends everything fetched for it, each record with the same id, which is the next free id; the catalog so far stays in front |
| Reconciler.StepFresh | check1.py:69-73 | the id appended for a name is above every id already in the catalog, including the ids of names handled earlier |
| Reconciler.AppendNew | check1.py:63-75 | the new-names loop keeps every id an integer; `AppendNewContent`, `AppendNewAids`, `AppendNewNameBlock` and `NameAidsIncrease` state what it appends |
| Reconciler.AppendNewContent | check1.py:63-75 | after the new-names loop the stored catalog is a prefix and the rest is what was fetched, record for record, each with an id |
| Reconciler.AppendNewAids | check1.py:63-75 | every appended id exceeds every pre-existing id, and ids never decrease along the appended part |
| Reconciler.AppendNewConcat | check1.py:65-75 | running the loop over one order and then another is running it over both |
| Reconciler.AppendNewLast | check1.py:65-75 | the loop over the first `k + 1` names is one more iteration after the loop over the first `k` |
| Reconciler.AppendNewPrefix | check1.py:65-75 | the loop over a longer order keeps the result for a prefix of it in front |
| Reconciler.AppendNewNameBlock | check1.py:68-73 | the records fetched for the `k`-th name sit right after what the earlier names produced, in fetch order, each stamped with the next free id at that point |
| Reconciler.NameAidsIncrease | check1.py:69-73 | a name that fetched something gets an id below the id of every later name: different new names get distinct, increasing ids |
| Reconciler.AllFetchedEmpty | check1.py:63-75 | nothing is appended exactly when nothing was fetched for any new name |
| Reconciler.RemoveAll | check1.py:77-84 | after the deletion loop a record remains exactly when it was there and its name is not one of the deleted names |
| Reconciler.RemoveNamed | check1.py:83 | the filter keeps exactly the records whose name differs, duplicates of the name included |
| Reconciler.RemoveAllIsKeep | check1.py:77-84 | the deletion loop, in any order, keeps in original order exactly the records whose name is not deleted |
| Reconciler.EnumeratedSet | check1.py:65 | an iteration order of a set visits exactly that set |
| Reconciler.Reconcile | check1.py:97-114 | the pass never aborts after decoding; it hands the catalog on unchanged only when it equals what was read, and writes otherwise |
| Reconciler.UpdatedIsKeep | check1.py:60-84 | both loops together are the appended catalog without the records of deleted names |
| Reconciler.AppendedSplit | check1.py:60-75 | the new-names loop only appends |
| Reconciler.ReconcileShape | check1.py:60-95 | the written catalog is the stored records of names not deleted, in order, then the surviving appended records; stored records are not modified |
| Reconciler.ReconcileKeeps | check1.py:86-95 | every stored record that is not deleted is in the written catalog unchanged, and no record of a deleted name is |
| Reconciler.DeletionChanges | check1.py:77-84 | any deleted name changes the catalog |
| Reconciler.AppendChanges | check1.py:98 | with nothing deleted, the catalog changes exactly when something was fetched |
| Reconciler.NoChangeIff | check1.py:97-106 | the pass hands the catalog on unchanged exactly when no name was deleted and nothing was fetched for any new name |
| Reconciler.Precheck | check1.py:36-48 | the pass proceeds exactly when the listing and the stored text are non-empty, the text is not blank and decodes; each abort reason is named for its case |
| Reconciler.PerformCheck | check1.py:31-114 | the pass aborts exactly when the precheck fails, with its reason, and hands on the decoded catalog unchanged exactly when nothing was deleted or fetched |
| Reconciler.AppendStamped | check1.py:71-73 | the inner loop appends the fetched records stamped with the id |
| Reconciler.RemoveName | check1.py:83 | the comprehension is the filter `RemoveNamed` |
| Reconciler.RunPass | check1.py:60-114 | the loops as written, list by list, produce the `Reconcile` outcome |
| Pipeline.Fetch | check1.py:68 | the merger returns one record per named entry; `MergerCatalogues` states how each is catalogued |
| Pipeline.MergerCatalogues | addon.py:188-242 | the real merger, given named listing entries, returns one record per entry, with the entry's name under `NAME` and no `name` or `aid` |
| Pipeline.EntriesAreNamed | check1.py:68 | the entries handed to the merger for a listed name all carry that name, so `folder["name"]` never raises |
| Pipeline.FetchListed | check1.py:68-69 | for a listed name the merger returns at least one record, and each is catalogued under that name |
| Pipeline.AllFetchedUnnamed | check1.py:68-73 | nothing the merger returns carries a `name` key |
| Pipeline.NamesOfKeep | check1.py:83 | removing names from a list removes exactly them from its name set |
| Pipeline.PassNames | check1.py:51-84 | the written catalog's names are the stored and fetched names less the deleted ones |
| Pipeline.PassNamesAsWritten | check1.py:51-73 | as written, the catalog a pass writes has exactly the unchanged names: the new titles it stored are not visible to the next pass |
| Pipeline.RerunAsWritten | check1.py:51-75 | as written, re-running a pass that added titles over the catalog it wrote finds the same new titles and writes again |
| Pipeline.AlphaTwice | check1.py:63-73 | one listed title and an empty catalog: the first pass stores one record with id 1, and the second pass over that catalog stores a second copy |
| Pipeline.NameRecords | addon.py:215 | the correction adds `name`, equal to `NAME`, and changes nothing else |
| Pipeline.NamesIgnoreAid | check1.py:72 | stamping ids does not change a list's names |
| Pipeline.PassNamesCorrected | check1.py:51-84 | with the correction, the written catalog has exactly the listed names |
| Pipeline.ReconcileAidsAreInts | check1.py:70-73 | the written catalog still has integer ids |
| Pipeline.RerunCorrected | check1.py:97-106 | with the correction, a second pass over the written catalog, with the listing unchanged, hands it on unchanged |
| Pipeline.RerunMergedCorrected | addon.py:212-237 | the same, for the real merger with `name` added |
| Pipeline.NoChangeIffSameNames | check1.py:51-106 | with or without the correction, a pass hands the catalog on unchanged exactly when the listed and stored name sets are equal |

## Findings

| source | as written | input that shows it | evidently intended | confidence | as-written member | corrected member |
|---|---|---|---|---|---|---|
| addon.py:215 | the merged record stores the title under `NAME` only, but check1.py:51-52 and 83 match records on `name`, so a stored title is invisible to the next pass | listing `[{"name": "Alpha"}]`, empty catalog: pass 1 writes one record with `NAME` "Alpha" and `aid` 1; pass 2 over that catalog sees "Alpha" as new again and appends a second copy | the merged record also carries `name`, so that a second pass with the listing unchanged is a no-op | medium; not executed (update.py, which writes the catalog back, is not part of this model) | Pipeline.AlphaTwice | Pipeline.RerunMergedCorrected |

The as-written merger stays in `Merger`, because that is what the code does.
`Pipeline.RerunAsWritten` generalises the counterexample to every pass that
adds a title. The correction `Pipeline.NameRecords` adds `name` to each merged
record, and `Pipeline.FetchNamed` is the merger with the correction applied.
`Pipeline.PassNamesCorrected` and `Pipeline.RerunCorrected` prove that with
the correction a pass is idempotent.

## Left out

- `bot.py` and `db.py` are not part of this model. They are chat handlers, process streaming, a health-check server and GitHub contents-API storage.
- Network I/O is left out. Each service's answer is an input: the Jikan, Kitsu and IMDb searches, the relations and recommendations endpoints, and the envs.sh relay. So is the cloud listing. Malformed JSON from a service, which raises an uncaught `KeyError` or `AttributeError` in the fetchers, is not modelled: the inputs are well-formed items.
- `fetch_complete_data(None)` is left out. It fetches the listing itself; `perform_check` always passes a list.
- `json.loads`/`json.dumps` are left out. Decoding is a parameter that may fail.
- The hand-off to `check2.py`/`update.py` through `subprocess` is left out. It appears only as the `NoChange`/`Update` outcome.
- Printing and logging are left out.
- Listing entries are records. A listing item that is a bare string makes `anime.get('name')` raise at check1.py:51, even though `fetch_complete_data` accepts bare strings. That crash is not modelled: `cloud` is a `seq<Record>`.
- A stored catalog that decodes to something that is neither a list nor a dict (`"5"`, `"null"`), or to a list with a non-object item (`"[1]"`), makes check1.py:52 raise. A non-empty dict (`'{"a": 1}'`) raises there too, since its keys are strings without `.get`. The decoder parameter returns either a list of records or nothing, so the model can only show such text as the clean `DecodeFailed` abort. The crash itself is not modelled.
- A stored catalog of `"{}"` decodes to an empty dict, which passes check1.py:51-53 with no stored names. If some listed name fetched something, `updated_db_data.append` raises at check1.py:73, because a dict has no `append`. Otherwise check1.py:98-106 hands `{}` on as no change. Neither path is modelled: the stored catalog is always a list.
- Reconciler.GenerateNewAid: requires every stored `aid` to be an integer (`AidsAreInts`). Python's `max` on mixed types raises or, for floats and bools, compares numerically; that is not modelled.
- Reconciler.Reconcile, Reconciler.PerformCheck, Reconciler.RunPass: require every stored `aid` to be an integer on every pass (`AidsAreInts`, through `Runnable` for `PerformCheck`), including passes that never call `generate_new_aid` because no new name fetched anything. Python reads stored ids only inside `generate_new_aid` (check1.py:19-22, reached from check1.py:69-70), so a catalog such as `[{"name": "A", "aid": "x"}]` with an unchanged listing is handed on unchanged there but is outside the model. The program itself only ever writes integer ids.
- Reconciler.Names: names are compared by value. Python's `1 == 1.0 == True` collapsing in sets and dicts, and the `TypeError` for unhashable list or dict names, are not modelled.
- PyStr.Capitalize: only ASCII letters change case. Python's Unicode case mapping is not modelled.
- Merger.FetchCompleteData: requires every folder to have `name`. The `KeyError` Python raises otherwise is not modelled, and `perform_check` never triggers it (`Pipeline.EntriesAreNamed`).
- Pipeline.Fetch: the services' answers are a function of the title, so a title fetched twice gets the same answers. Answers that change between calls are not modelled.
- The unchanged-names loop (check1.py:86-95) has no effect. It is modelled by `Reconciler.ReconcileKeeps` stating that unchanged records survive unmodified.

=== FILE: enrichers.dfy ===
/** The three metadata sources (Jikan, Kitsu, IMDb) and the image relay, with
    the network replaced by its answers: each fetcher here receives what the
    service returned and builds the partial record the source code builds. */
module Enrichers {
  import opened Wrappers
  import opened PyValue
  import opened PyStr

  /** The "not available" sentinel. */
  const NA := "N/A"
  const NoSynopsis := "No synopsis available."
  const NoSimilar := "No similar anime found."
  const SimilarError := "Error fetching similar anime."

  /** What a metadata service answered for one title: the request failed
      (exception or non-success status), it matched nothing, or its first
      match. */
  datatype Fetched<T> = RequestFailed | NoResults | Found(item: T)

  // ---------------------------------------------------------------------
  // Image relay
  // ---------------------------------------------------------------------

  /** The relay service's answer to one upload. */
  datatype RelayResponse = Response(status: int, text: string) | RequestError

  /** `upload_image_to_envs`: the relay's text on status 200, otherwise the
      original URL. */
  function Upload(url: string, resp: RelayResponse): (r: string)
    ensures resp.Response? && resp.status == 200 ==> r == resp.text
    ensures r == url || (resp.Response? && resp.status == 200)
  {
    match resp
    case Response(status, text) => if status == 200 then text else url
    case RequestError => url
  }

  /** Upload `url` through the relay whose answers are `post`. */
  function Relay(url: string, post: string -> RelayResponse): string {
    Upload(url, post(url))
  }

  /** An image the source may lack: relayed when present, else the sentinel. */
  function ImageOrNA(url: Option<string>, post: string -> RelayResponse): string {
    if url.Some? then Relay(url.value, post) else NA
  }

  // ---------------------------------------------------------------------
  // YouTube trailer rewrite
  // ---------------------------------------------------------------------

  const EmbedPrefix := "https://www.youtube.com/embed/"
  const EmbedQuery := "?enablejsapi=1" + "&wmode=opaque" + "&autoplay=1&loop=1"
  const ThumbPrefix := "https://img.youtube.com/vi/"
  const ThumbSuffix := "/maxresdefault.jpg"

  /** The embeddable player URL for a video id. */
  function EmbedUrl(videoId: string): string {
    EmbedPrefix + videoId + EmbedQuery
  }

  /** `url.split('?v=')[-1]`. */
  function WatchId(url: string): string {
    Last(Split(url, "?v="))
  }

  /** `embed.split("/embed/")[-1].split("?")[0]`. */
  function EmbedVideoId(embed: string): string {
    Split(Last(Split(embed, "/embed/")), "?")[0]
  }

  datatype TrailerLinks = TrailerLinks(trailer: string, banner: string)

  /** The trailer URL is truthy and mentions youtube.com. */
  predicate IsYoutube(url: Option<string>) {
    url.Some? && url.value != "" && Contains(url.value, "youtube.com")
  }

  /** The Jikan trailer rule: a YouTube watch URL becomes an embed URL and a
      thumbnail URL; anything else degrades both to the sentinel. */
  function RewriteTrailer(url: Option<string>): (r: TrailerLinks)
    ensures r.trailer == NA <==> !IsYoutube(url)
    ensures r.banner == NA <==> !IsYoutube(url)
  {
    if IsYoutube(url) then
      var embed := EmbedUrl(WatchId(url.value));
      assert |embed| > 3;
      assert |ThumbPrefix + EmbedVideoId(embed) + ThumbSuffix| > 3;
      TrailerLinks(embed, ThumbPrefix + EmbedVideoId(embed) + ThumbSuffix)
    else
      TrailerLinks(NA, NA)
  }

  /** The watch id is what follows the last "?v=" (the whole URL when there
      is none), and it holds no further "?v=". */
  lemma WatchIdAfterLastMarker(url: string)
    ensures !Contains(WatchId(url), "?v=")
    ensures !Contains(url, "?v=") ==> WatchId(url) == url
    ensures Contains(url, "?v=") ==>
      exists i :: OccursAt(url, "?v=", i) && WatchId(url) == url[i + 3..]
  {
    SplitLast(url, "?v=");
  }

  /** The embed prefix holds "/embed/" at index 23 and nowhere before. */
  lemma FirstEmbedMarker(x: string)
    ensures Find(EmbedUrl(x), "/embed/") == Some(23)
  {
    var e := EmbedUrl(x);
    var P := EmbedPrefix;
    assert |P| == 30;
    forall i | 0 <= i < 23
      ensures !OccursAt(e, "/embed/", i)
    {
      assert P[i] != '/' || P[i + 1] != 'e';
      assert e[i..i + 7] == P[i..i + 7];
      assert P[i..i + 7][0] == P[i] && P[i..i + 7][1] == P[i + 1];
    }
    assert e[23..30] == P[23..30] == "/embed/";
    FindIs(e, "/embed/", 23);
  }

  /** After the embed prefix, a watch id free of "/embed/" leaves no marker:
      the query suffix starts with '?' and has no '/'. */
  lemma NoMarkerAfterPrefix(x: string)
    requires !Contains(x, "/embed/")
    ensures Find(x + EmbedQuery, "/embed/") == None
  {
    var s := x + EmbedQuery;
    var sep := "/embed/";
    var Q := EmbedQuery;
    assert forall k :: 0 <= k < |Q| ==> Q[k] != '/';
    forall i | 0 <= i
      ensures !OccursAt(s, sep, i)
    {
      if i + 7 <= |s| {
        if i + 7 <= |x| {
          assert s[i..i + 7] == x[i..i + 7];
          assert !OccursAt(x, sep, i);
        } else if i <= |x| {
          assert s[i..i + 7][|x| - i] == s[|x|] == Q[0] == '?';
        } else {
          assert s[i..i + 7][0] == s[i] == Q[i - |x|];
        }
      }
    }
  }

  /** Splitting the embed URL at "/embed/" leaves the watch id and the query
      as the last part. */
  lemma LastEmbedPart(x: string)
    requires !Contains(x, "/embed/")
    ensures Last(Split(EmbedUrl(x), "/embed/")) == x + EmbedQuery
  {
    var e := EmbedUrl(x);
    var tail := x + EmbedQuery;
    assert e == EmbedPrefix + tail;
    assert |EmbedPrefix| == 23 + |"/embed/"|;
    assert e[23 + |"/embed/"|..] == tail;
    FirstEmbedMarker(x);
    SplitAtFirst(e, "/embed/", 23);
    NoMarkerAfterPrefix(x);
    SplitNoSeparator(tail, "/embed/");
    assert Split(e, "/embed/") == [e[..23]] + [tail];
  }

  /** Cutting the watch id and query at the first '?' gives back the id. */
  lemma FirstQueryPart(x: string)
    requires '?' !in x
    ensures Split(x + EmbedQuery, "?")[0] == x
  {
    var s := x + EmbedQuery;
    assert OccursAt(s, "?", |x|) by {
      assert s[|x|..|x| + 1] == [EmbedQuery[0]];
    }
    forall i | 0 <= i < |x|
      ensures !OccursAt(s, "?", i)
    {
      assert s[i..i + 1] == [x[i]];
    }
    FindIs(s, "?", |x|);
    assert s[..|x|] == x;
  }

  /** The thumbnail's video id is the watch id itself whenever the watch id
      holds neither '?' nor "/embed/". */
  lemma EmbedVideoIdRecoversId(x: string)
    requires '?' !in x
    requires !Contains(x, "/embed/")
    ensures EmbedVideoId(EmbedUrl(x)) == x
  {
    LastEmbedPart(x);
    FirstQueryPart(x);
  }

  /** The trailer rewrite: YouTube URLs become the embed URL of their watch id
      and the thumbnail of that id (when the id is plain); anything else
      becomes the sentinel pair. */
  lemma RewriteTrailerSpec(url: Option<string>)
    ensures IsYoutube(url) ==> RewriteTrailer(url).trailer == EmbedUrl(WatchId(url.value))
    ensures IsYoutube(url) && '?' !in WatchId(url.value) && !Contains(WatchId(url.value), "/embed/") ==>
      RewriteTrailer(url).banner == ThumbPrefix + WatchId(url.value) + ThumbSuffix
    ensures IsYoutube(url) ==> RewriteTrailer(url).trailer != NA && RewriteTrailer(url).banner != NA
    ensures !IsYoutube(url) ==> RewriteTrailer(url) == TrailerLinks(NA, NA)
  {
    if IsYoutube(url) {
      var x := WatchId(url.value);
      if '?' !in x && !Contains(x, "/embed/") {
        EmbedVideoIdRecoversId(x);
      }
      assert |EmbedUrl(x)| > 3;
    }
  }

  /** Kitsu's trailer: an embed URL when `youtubeVideoId` is truthy, else the
      sentinel. */
  function KitsuTrailer(videoId: Option<string>): (r: string)
    ensures r == NA <==> videoId.None? || videoId.value == ""
    ensures r != NA ==> r == EmbedUrl(videoId.value)
  {
    if videoId.Some? && videoId.value != "" then EmbedUrl(videoId.value) else NA
  }

  // ---------------------------------------------------------------------
  // Related titles (fetch_list_anime)
  // ---------------------------------------------------------------------

  /** The truthy elements, in order. */
  function TruthyOnly(xs: seq<Value>): (r: seq<Value>)
    ensures forall i :: 0 <= i < |r| ==> Truthy(r[i])
    ensures |r| <= |xs|
  {
    if |xs| == 0 then []
    else (if Truthy(xs[0]) then [xs[0]] else []) + TruthyOnly(xs[1..])
  }

  lemma {:induction false} TruthyOnlyAppend(a: seq<Value>, b: seq<Value>)
    ensures TruthyOnly(a + b) == TruthyOnly(a) + TruthyOnly(b)
    decreases |a|
  {
    if |a| > 0 {
      var h := if Truthy(a[0]) then [a[0]] else [];
      assert (a + b)[0] == a[0];
      assert (a + b)[1..] == a[1..] + b;
      assert TruthyOnly(a + b) == h + TruthyOnly(a[1..] + b);
      TruthyOnlyAppend(a[1..], b);
      assert TruthyOnly(a) == h + TruthyOnly(a[1..]);
    } else {
      assert a + b == b;
    }
  }

  lemma {:induction false} TruthyOnlyEmptyIff(xs: seq<Value>)
    ensures TruthyOnly(xs) == [] <==> forall i :: 0 <= i < |xs| ==> !Truthy(xs[i])
    decreases |xs|
  {
    if |xs| > 0 {
      TruthyOnlyEmptyIff(xs[1..]);
      assert forall i :: 1 <= i < |xs| ==> xs[i] == xs[1..][i - 1];
    }
  }

  /** The entries of every relation, relation by relation. */
  function Concat(groups: seq<seq<Value>>): seq<Value>
    decreases |groups|
  {
    if |groups| == 0 then [] else Concat(groups[..|groups| - 1]) + groups[|groups| - 1]
  }

  /** Every entry of every relation is in the concatenation. */
  lemma {:induction false} ConcatHasEntries(groups: seq<seq<Value>>)
    ensures forall i, j :: 0 <= i < |groups| && 0 <= j < |groups[i]| ==> groups[i][j] in Concat(groups)
    decreases |groups|
  {
    if |groups| > 0 {
      var init := groups[..|groups| - 1];
      ConcatHasEntries(init);
      var c := Concat(groups);
      assert c == Concat(init) + groups[|groups| - 1];
      forall i, j | 0 <= i < |groups| && 0 <= j < |groups[i]|
        ensures groups[i][j] in c
      {
        if i < |init| {
          assert groups[i][j] == init[i][j];
        } else {
          assert c[|Concat(init)| + j] == groups[i][j];
        }
      }
    }
  }

  /** When no entry is truthy, nothing in the concatenation is. */
  lemma {:induction false} ConcatFalsy(groups: seq<seq<Value>>)
    requires forall i, j :: 0 <= i < |groups| && 0 <= j < |groups[i]| ==> !Truthy(groups[i][j])
    ensures forall k :: 0 <= k < |Concat(groups)| ==> !Truthy(Concat(groups)[k])
    decreases |groups|
  {
    if |groups| > 0 {
      var init := groups[..|groups| - 1];
      assert forall i :: 0 <= i < |init| ==> init[i] == groups[i];
      ConcatFalsy(init);
      var last := groups[|groups| - 1];
      var c := Concat(groups);
      assert c == Concat(init) + last;
      forall k | 0 <= k < |c|
        ensures !Truthy(c[k])
      {
        if k >= |Concat(init)| {
          assert c[k] == last[k - |Concat(init)|];
        }
      }
    }
  }

  /** The reference order: truthy names, relation by relation, entry by entry. */
  function RelatedNames(groups: seq<seq<Value>>): seq<Value> {
    TruthyOnly(Concat(groups))
  }

  /** No related title is collected exactly when no entry has a truthy name. */
  lemma RelatedNamesEmptyIff(groups: seq<seq<Value>>)
    ensures RelatedNames(groups) == [] <==>
      forall i, j :: 0 <= i < |groups| && 0 <= j < |groups[i]| ==> !Truthy(groups[i][j])
  {
    var c := Concat(groups);
    ConcatHasEntries(groups);
    TruthyOnlyEmptyIff(c);
    if forall i, j :: 0 <= i < |groups| && 0 <= j < |groups[i]| ==> !Truthy(groups[i][j]) {
      ConcatFalsy(groups);
    }
    if RelatedNames(groups) == [] {
      forall i, j | 0 <= i < |groups| && 0 <= j < |groups[i]|
        ensures !Truthy(groups[i][j])
      {
        var k :| 0 <= k < |c| && c[k] == groups[i][j];
      }
    }
  }

  /** One more entry extends the truthy names by that entry when it is truthy. */
  lemma TruthyOnlySnoc(xs: seq<Value>, j: nat)
    requires j < |xs|
    ensures TruthyOnly(xs[..j + 1]) == TruthyOnly(xs[..j]) + (if Truthy(xs[j]) then [xs[j]] else [])
  {
    assert xs[..j + 1] == xs[..j] + [xs[j]];
    TruthyOnlyAppend(xs[..j], [xs[j]]);
    assert TruthyOnly([xs[j]]) == (if Truthy(xs[j]) then [xs[j]] else []) + TruthyOnly([]);
  }

  /** One more relation extends the related names by its truthy names. */
  lemma RelatedNamesSnoc(groups: seq<seq<Value>>, i: nat)
    requires i < |groups|
    ensures RelatedNames(groups[..i + 1]) == RelatedNames(groups[..i]) + TruthyOnly(groups[i])
  {
    assert groups[..i + 1][..i] == groups[..i];
    assert Concat(groups[..i + 1]) == Concat(groups[..i]) + groups[i];
    TruthyOnlyAppend(Concat(groups[..i]), groups[i]);
  }

  /** The nested loop of `fetch_list_anime`, collecting truthy entry names. */
  method CollectRelated(groups: seq<seq<Value>>) returns (names: seq<Value>)
    ensures names == RelatedNames(groups)
  {
    names := [];
    var i := 0;
    while i < |groups|
      invariant 0 <= i <= |groups|
      invariant names == RelatedNames(groups[..i])
    {
      var entries := groups[i];
      var j := 0;
      while j < |entries|
        invariant 0 <= j <= |entries|
        invariant names == RelatedNames(groups[..i]) + TruthyOnly(entries[..j])
      {
        TruthyOnlySnoc(entries, j);
        if Truthy(entries[j]) {
          names := names + [entries[j]];
        }
        j := j + 1;
      }
      assert entries[..j] == entries;
      RelatedNamesSnoc(groups, i);
      i := i + 1;
    }
    assert groups[..i] == groups;
  }

  /** What the relations endpoint answered: a failed request, or each
      relation's entry names (`None` where an entry has no name). */
  datatype RelationsResponse = RelationsFailed | Relations(groups: seq<seq<Value>>)

  /** `fetch_list_anime`: the collected names, or the sentinel when the
      request failed or nothing was collected. */
  function ListAnime(resp: RelationsResponse): (v: Value)
    ensures v == Str(NA) <==> (resp.RelationsFailed? ||
      forall i, j :: 0 <= i < |resp.groups| && 0 <= j < |resp.groups[i]| ==> !Truthy(resp.groups[i][j]))
    ensures v != Str(NA) ==> v == List(RelatedNames(resp.groups))
  {
    match resp
    case RelationsFailed => Str(NA)
    case Relations(groups) =>
      RelatedNamesEmptyIff(groups);
      var names := RelatedNames(groups);
      if |names| > 0 then List(names) else Str(NA)
  }

  // ---------------------------------------------------------------------
  // Joins and similar titles
  // ---------------------------------------------------------------------

  /** A `", "` join is empty only for no parts or one empty part, and is the
      sentinel only for the sentinel alone. */
  lemma CommaJoinFacts(names: seq<string>)
    ensures Join(names, ", ") == "" <==> names == [] || names == [""]
    ensures Join(names, ", ") == NA <==> names == [NA]
  {
    JoinEmptyIff(names, ", ");
    if |names| >= 2 {
      JoinHasSeparator(names, ", ");
      var j := Join(names, ", ");
      assert j[|names[0]|] == ',' by {
        assert j[|names[0]|..|names[0]| + 2][0] == ',';
      }
      assert forall m :: 0 <= m < |NA| ==> NA[m] != ',';
    } else if |names| == 1 {
      assert names == [names[0]];
    }
  }

  /** The `", "` join of genre, studio or producer names, with the sentinel
      when the join comes out empty. */
  function JoinOrNA(names: seq<string>): (r: string)
    ensures r == NA <==> names == [] || names == [""] || names == [NA]
    ensures r == NA || r == Join(names, ", ")
  {
    CommaJoinFacts(names);
    var joined := Join(names, ", ");
    if joined != "" then joined else NA
  }

  /** What the recommendations endpoint answered: a failed request, or the
      titles of its entries. */
  datatype RecsResponse = RecsFailed | Recs(titles: seq<string>)

  /** `fetch_similar_anime`: the `", "` join of the recommended titles; the
      sentinel without a truthy id; the error text for a failed request; the
      "none found" text for no titles. It answers "" only for a single empty
      title, and the sentinel only for a missing id or a single sentinel
      title. */
  function SimilarAnime(malId: Value, resp: RecsResponse): (r: string)
    ensures Truthy(malId) && resp.Recs? && |resp.titles| > 0 ==> r == Join(resp.titles, ", ")
    ensures r == "" <==> Truthy(malId) && resp.Recs? && resp.titles == [""]
    ensures r == NA <==> !Truthy(malId) || (resp.Recs? && resp.titles == [NA])
  {
    match resp
    case RecsFailed => if !Truthy(malId) then NA else SimilarError
    case Recs(titles) =>
      CommaJoinFacts(titles);
      if !Truthy(malId) then NA
      else if |titles| > 0 then Join(titles, ", ") else NoSimilar
  }

  /** The `sanime` field, `fetch_similar_anime(mal_id) or "N/A"`: never empty,
      and the sentinel exactly when there is no id or the titles join to it
      or to nothing. */
  function SimilarField(malId: Value, resp: RecsResponse): (r: string)
    ensures r != ""
    ensures r == NA <==> (!Truthy(malId) ||
      (resp.Recs? && (resp.titles == [""] || resp.titles == [NA])))
    ensures Truthy(malId) && resp.RecsFailed? ==> r == SimilarError
    ensures Truthy(malId) && resp.Recs? && resp.titles == [] ==> r == NoSimilar
    ensures Truthy(malId) && resp.Recs? && |resp.titles| > 0 && r != NA ==> r == Join(resp.titles, ", ")
  {
    var s := SimilarAnime(malId, resp);
    if s != "" then s else NA
  }

  // ---------------------------------------------------------------------
  // The three per-source records
  // ---------------------------------------------------------------------

  /** `k` is present in `r` and holds a string. */
  predicate StrAt(r: Record, k: string) {
    k in r && r[k].Str?
  }

  const JikanKeys: set<string> := {
    "type", "jname", "airing", "pg_rating", "jposter", "jtrailer", "jbanner",
    "genre", "studios", "producers", "listanime", "sanime"
  }
  const KitsuKeys: set<string> := {
    "status", "total_episodes", "kposter", "ktrailer", "banner", "synopsis"
  }
  const ImdbKeys: set<string> := {"imdb_rating", "imdb_votes", "iposter", "itrailer"}

  /** The three sources never return a common key. */
  lemma SourceKeysDisjoint()
    ensures JikanKeys !! KitsuKeys && JikanKeys !! ImdbKeys && KitsuKeys !! ImdbKeys
  {
  }

  /** The first Jikan match, as far as the code reads it. `.get` look-ups with
      a default are `Option`s (absent key); `mal_id` reads as `None` when
      absent; `genres`, `studios` and `producers` are the `name`s of their
      entries. */
  datatype JikanItem = JikanItem(
    malId: Value,
    trailerUrl: Option<string>,
    kind: Option<Value>,
    titleJapanese: Option<Value>,
    airing: Option<Value>,
    rating: Option<Value>,
    largeImage: Option<string>,
    genres: seq<string>,
    studios: seq<string>,
    producers: seq<string>)

  predicate JikanShaped(r: Record) {
    r.Keys == JikanKeys && StrAt(r, "jposter") && StrAt(r, "jtrailer") && StrAt(r, "jbanner")
  }

  /** The record `fetch_jikan_data` builds from its first match. */
  function JikanRecord(a: JikanItem, relations: RelationsResponse, recs: RecsResponse,
                       post: string -> RelayResponse): (r: Record)
    ensures JikanShaped(r)
  {
    var links := RewriteTrailer(a.trailerUrl);
    var jbanner := if links.banner != NA then Relay(links.banner, post) else NA;
    JikanDict(a, ImageOrNA(a.largeImage, post), links.trailer, jbanner,
              ListAnime(relations), SimilarField(a.malId, recs))
  }

  /** The dictionary literal of `fetch_jikan_data`, given its three media
      links, the related names and the recommendations. */
  function JikanDict(a: JikanItem, jposter: string, jtrailer: string, jbanner: string,
                     listanime: Value, sanime: string): (r: Record)
    ensures JikanShaped(r)
    ensures r["jposter"] == Str(jposter) && r["jtrailer"] == Str(jtrailer) && r["jbanner"] == Str(jbanner)
    ensures r["listanime"] == listanime && r["sanime"] == Str(sanime)
  {
    map[
      "type" := a.kind.GetOr(Str("Unknown")),
      "jname" := a.titleJapanese.GetOr(Str("Unknown")),
      "airing" := a.airing.GetOr(Str("False")),
      "pg_rating" := a.rating.GetOr(Str(NA)),
      "jposter" := Str(jposter),
      "jtrailer" := Str(jtrailer),
      "jbanner" := Str(jbanner),
      "genre" := Str(JoinOrNA(a.genres)),
      "studios" := Str(JoinOrNA(a.studios)),
      "producers" := Str(JoinOrNA(a.producers)),
      "listanime" := listanime,
      "sanime" := Str(sanime)
    ]
  }

  /** Jikan's media fields: a YouTube trailer gives the embed URL and the
      relayed thumbnail, anything else gives the sentinel for both; the
      poster is the relayed large image, or the sentinel without one; the
      related and similar titles are the two follow-up answers. */
  lemma JikanRecordFields(a: JikanItem, relations: RelationsResponse, recs: RecsResponse,
                          post: string -> RelayResponse)
    ensures var r := JikanRecord(a, relations, recs, post);
      && (IsYoutube(a.trailerUrl) ==>
            && r["jtrailer"] == Str(EmbedUrl(WatchId(a.trailerUrl.value)))
            && r["jbanner"] == Str(Relay(RewriteTrailer(a.trailerUrl).banner, post)))
      && (!IsYoutube(a.trailerUrl) ==> r["jtrailer"] == Str(NA) && r["jbanner"] == Str(NA))
      && r["jposter"] == Str(ImageOrNA(a.largeImage, post))
      && r["listanime"] == ListAnime(relations)
      && r["sanime"] == Str(SimilarField(a.malId, recs))
  {
    RewriteTrailerSpec(a.trailerUrl);
  }

  /** `fetch_jikan_data`: a record for a match, nothing otherwise. */
  function FetchJikan(resp: Fetched<JikanItem>, relations: RelationsResponse, recs: RecsResponse,
                      post: string -> RelayResponse): (r: Option<Record>)
    ensures r.Some? <==> resp.Found?
    ensures r.Some? ==> JikanShaped(r.value)
  {
    if resp.Found? then Some(JikanRecord(resp.item, relations, recs, post)) else None
  }

  /** The first Kitsu match's attributes, as far as the code reads them.
      `coverImage` and `posterImage` hold the original URL when the image
      object is truthy. */
  datatype KitsuItem = KitsuItem(
    youtubeVideoId: Option<string>,
    coverImage: Option<string>,
    posterImage: Option<string>,
    status: Option<string>,
    episodeCount: Option<Value>,
    synopsis: Option<Value>)

  predicate KitsuShaped(r: Record) {
    r.Keys == KitsuKeys && StrAt(r, "kposter") && StrAt(r, "ktrailer") && StrAt(r, "banner")
  }

  /** The record `fetch_kitsu_data` builds from its first match. */
  function KitsuRecord(a: KitsuItem, post: string -> RelayResponse): (r: Record)
    ensures KitsuShaped(r)
    ensures r["ktrailer"] == Str(KitsuTrailer(a.youtubeVideoId))
    ensures r["kposter"] == Str(ImageOrNA(a.posterImage, post))
    ensures r["banner"] == Str(ImageOrNA(a.coverImage, post))
    ensures a.synopsis.None? ==> r["synopsis"] == Str(NoSynopsis)
  {
    map[
      "status" := Str(Capitalize(a.status.GetOr("Unknown"))),
      "total_episodes" := a.episodeCount.GetOr(Str(NA)),
      "kposter" := Str(ImageOrNA(a.posterImage, post)),
      "ktrailer" := Str(KitsuTrailer(a.youtubeVideoId)),
      "banner" := Str(ImageOrNA(a.coverImage, post)),
      "synopsis" := a.synopsis.GetOr(Str(NoSynopsis))
    ]
  }

  /** `fetch_kitsu_data`: a record for a match, nothing otherwise. */
  function FetchKitsu(resp: Fetched<KitsuItem>, post: string -> RelayResponse): (r: Option<Record>)
    ensures r.Some? <==> resp.Found?
    ensures r.Some? ==> KitsuShaped(r.value)
  {
    if resp.Found? then Some(KitsuRecord(resp.item, post)) else None
  }

  /** The first IMDb search result after `update`, as far as the code reads it. */
  datatype ImdbMovie = ImdbMovie(rating: Option<Value>, votes: Option<Value>, coverUrl: Option<string>)

  predicate ImdbShaped(r: Record) {
    r.Keys == ImdbKeys && StrAt(r, "iposter") && StrAt(r, "itrailer")
  }

  /** The record `fetch_imdb_data` builds. The cover is relayed even when it
      is the sentinel itself. */
  function ImdbRecord(m: ImdbMovie, post: string -> RelayResponse): (r: Record)
    ensures ImdbShaped(r)
    ensures r["itrailer"] == Str(NA)
    ensures r["iposter"] == Str(Relay(m.coverUrl.GetOr(NA), post))
  {
    map[
      "imdb_rating" := m.rating.GetOr(Str(NA)),
      "imdb_votes" := m.votes.GetOr(Str(NA)),
      "iposter" := Str(Relay(m.coverUrl.GetOr(NA), post)),
      "itrailer" := Str(NA)
    ]
  }

  /** `fetch_imdb_data`: every failure, of any kind, is no data. */
  function FetchImdb(resp: Fetched<ImdbMovie>, post: string -> RelayResponse): (r: Option<Record>)
    ensures r.Some? <==> resp.Found?
    ensures r.Some? ==> ImdbShaped(r.value)
  {
    if resp.Found? then Some(ImdbRecord(resp.item, post)) else None
  }
}

=== FILE: merger.dfy ===
/** The record merger of `fetch_complete_data`: one folder entry and the three
    optional source records become one flat catalog record. */
module Merger {
  import opened Wrappers
  import opened PyValue
  import opened PyStr
  import opened Enrichers

  /** One folder-listing item: a bare name string or a dict. */
  datatype Folder = Bare(title: string) | Entry(fields: Record)

  /** The dict the merger reads: `{"name": s}` for a bare string `s`. */
  function AsRecord(f: Folder): Record {
    match f
    case Bare(t) => map["name" := Str(t)]
    case Entry(r) => r
  }

  /** `folder["name"]` does not raise. */
  predicate HasName(f: Folder) {
    "name" in AsRecord(f)
  }

  function FolderName(f: Folder): Value
    requires HasName(f)
  {
    AsRecord(f)["name"]
  }

  /** `folder.get("AID") or folder.get("aid") or "N/A"`. */
  function FolderAid(r: Record): (v: Value)
    ensures Truthy(v) || v == Str(NA)
    ensures v == Str(NA) || v == Lookup(r, "AID") || v == Lookup(r, "aid")
  {
    Or(Lookup(r, "AID"), Or(Lookup(r, "aid"), Str(NA)))
  }

  /** A value that `", ".join` accepts once `filter(None, ...)` has dropped
      the falsy ones. */
  predicate StrWhenTruthy(v: Value) {
    Truthy(v) ==> v.Str?
  }

  /** `filter(None, vs)` as strings: the truthy values, in order. */
  function Present(vs: seq<Value>): (r: seq<string>)
    requires forall v :: v in vs ==> StrWhenTruthy(v)
    ensures |r| <= |vs|
    ensures forall i :: 0 <= i < |r| ==> r[i] != ""
  {
    if |vs| == 0 then []
    else
      assert vs[0] in vs && StrWhenTruthy(vs[0]);
      (if Truthy(vs[0]) then [vs[0].s] else []) + Present(vs[1..])
  }

  /** What one value contributes to `filter(None, ...)`: its string when
      truthy, nothing otherwise. */
  function Kept(v: Value): (r: seq<string>)
    requires StrWhenTruthy(v)
    ensures |r| <= 1
    ensures r == [] <==> !Truthy(v)
  {
    if Truthy(v) then [v.s] else []
  }

  /** The filter works element by element: filtering a concatenation is
      concatenating the filtered parts. */
  lemma {:induction false} PresentAppend(a: seq<Value>, b: seq<Value>)
    requires forall v :: v in a ==> StrWhenTruthy(v)
    requires forall v :: v in b ==> StrWhenTruthy(v)
    ensures Present(a + b) == Present(a) + Present(b)
    decreases |a|
  {
    if |a| == 0 {
      assert a + b == b;
    } else {
      var ab := a + b;
      assert ab[0] == a[0] && ab[1..] == a[1..] + b;
      assert forall v :: v in ab ==> v in a || v in b;
      PresentCons(ab);
      PresentCons(a);
      PresentAppend(a[1..], b);
    }
  }

  /** The filter looks at the first value, then filters the rest. */
  lemma PresentCons(vs: seq<Value>)
    requires |vs| > 0 && forall v :: v in vs ==> StrWhenTruthy(v)
    ensures forall v :: v in vs[1..] ==> StrWhenTruthy(v)
    ensures Present(vs) == Kept(vs[0]) + Present(vs[1..])
  {
    assert vs[0] in vs;
  }

  /** A single value is kept exactly when it is truthy. */
  lemma PresentSingle(v: Value)
    requires StrWhenTruthy(v)
    ensures Present([v]) == Kept(v)
  {
    assert [v][1..] == [];
  }

  /** Filtering three values keeps each truthy one, in order. */
  lemma PresentThree(a: Value, b: Value, c: Value)
    requires StrWhenTruthy(a) && StrWhenTruthy(b) && StrWhenTruthy(c)
    ensures Present([a, b, c]) == Kept(a) + Kept(b) + Kept(c)
  {
    var vs := [a, b, c];
    PresentCons(vs);
    assert vs[0] == a && vs[1..] == [b, c];
    PresentTwo(b, c);
  }

  /** Filtering two values keeps each truthy one, in order. */
  lemma PresentTwo(a: Value, b: Value)
    requires StrWhenTruthy(a) && StrWhenTruthy(b)
    ensures Present([a, b]) == Kept(a) + Kept(b)
  {
    PresentAppend([a], [b]);
    assert [a] + [b] == [a, b];
    PresentSingle(a);
    PresentSingle(b);
  }

  /** The `", "` join of the filtered values is empty exactly when every
      value is falsy. */
  lemma PresentEmptyJoin(vs: seq<Value>)
    requires forall v :: v in vs ==> StrWhenTruthy(v)
    ensures Join(Present(vs), ", ") == "" <==> forall v :: v in vs ==> !Truthy(v)
  {
    JoinEmptyIff(Present(vs), ", ");
    if forall v :: v in vs ==> !Truthy(v) {
      PresentAllFalsy(vs);
    } else {
      PresentSomeTruthy(vs);
    }
  }

  /** A truthy value survives the filter. */
  lemma {:induction false} PresentSomeTruthy(vs: seq<Value>)
    requires forall v :: v in vs ==> StrWhenTruthy(v)
    requires exists v :: v in vs && Truthy(v)
    ensures Present(vs) != []
    decreases |vs|
  {
    assert vs[0] in vs;
    if !Truthy(vs[0]) {
      var v :| v in vs && Truthy(v);
      assert v in vs[1..];
      assert forall w :: w in vs[1..] ==> w in vs;
      PresentSomeTruthy(vs[1..]);
    }
  }

  /** Nothing falsy survives the filter. */
  lemma {:induction false} PresentAllFalsy(vs: seq<Value>)
    requires forall v :: v in vs ==> !Truthy(v)
    ensures Present(vs) == []
    decreases |vs|
  {
    if |vs| > 0 {
      assert vs[0] in vs;
      PresentAllFalsy(vs[1..]);
    }
  }

  /** Every truthy string survives the filter, in order. */
  lemma {:induction false} PresentAllTruthy(vs: seq<Value>)
    requires forall v :: v in vs ==> v.Str? && v.s != ""
    ensures Present(vs) == seq(|vs|, i requires 0 <= i < |vs| => vs[i].s)
    decreases |vs|
  {
    if |vs| > 0 {
      assert vs[0] in vs;
      PresentAllTruthy(vs[1..]);
    }
  }

  /** A source record, or `{}` for a source with no data: `fetch(...) or {}`. */
  function Src(o: Option<Record>): Record {
    if o.Some? then o.value else map[]
  }

  /** The media fields the combined lists read hold strings when truthy. */
  predicate MediaReady(imdb: Record, jikan: Record, kitsu: Record) {
    && StrWhenTruthy(Lookup(kitsu, "kposter")) && StrWhenTruthy(Lookup(kitsu, "banner"))
    && StrWhenTruthy(Lookup(kitsu, "ktrailer"))
    && StrWhenTruthy(Lookup(jikan, "jposter")) && StrWhenTruthy(Lookup(jikan, "jbanner"))
    && StrWhenTruthy(Lookup(jikan, "jtrailer"))
    && StrWhenTruthy(Lookup(imdb, "iposter"))
  }

  function Posters(imdb: Record, jikan: Record, kitsu: Record): (r: string)
    requires MediaReady(imdb, jikan, kitsu)
    ensures r == "" <==> forall v :: v in [Lookup(kitsu, "kposter"), Lookup(jikan, "jposter"), Lookup(imdb, "iposter")] ==> !Truthy(v)
  {
    PresentEmptyJoin([Lookup(kitsu, "kposter"), Lookup(jikan, "jposter"), Lookup(imdb, "iposter")]);
    Join(Present([Lookup(kitsu, "kposter"), Lookup(jikan, "jposter"), Lookup(imdb, "iposter")]), ", ")
  }

  function Banners(imdb: Record, jikan: Record, kitsu: Record): (r: string)
    requires MediaReady(imdb, jikan, kitsu)
    ensures r == "" <==> forall v :: v in [Lookup(kitsu, "banner"), Lookup(jikan, "jbanner")] ==> !Truthy(v)
  {
    PresentEmptyJoin([Lookup(kitsu, "banner"), Lookup(jikan, "jbanner")]);
    Join(Present([Lookup(kitsu, "banner"), Lookup(jikan, "jbanner")]), ", ")
  }

  function Trailers(imdb: Record, jikan: Record, kitsu: Record): (r: string)
    requires MediaReady(imdb, jikan, kitsu)
    ensures r == "" <==> forall v :: v in [Lookup(kitsu, "ktrailer"), Lookup(jikan, "jtrailer")] ==> !Truthy(v)
  {
    PresentEmptyJoin([Lookup(kitsu, "ktrailer"), Lookup(jikan, "jtrailer")]);
    Join(Present([Lookup(kitsu, "ktrailer"), Lookup(jikan, "jtrailer")]), ", ")
  }

  /** The keys of the merged dict literal, grouped by where their values
      come from. */
  const FolderFields: set<string> := {"AID", "LET", "NAME", "CNAME", "CIDs"}
  const JikanFields: set<string> :=
    {"jname", "type", "jposter", "airing", "producers", "studios", "jtrailer", "listanime"}
  const KitsuFields: set<string> := {"kposter", "ktrailer", "synopsis"}
  const ImdbFields: set<string> := {"iposter", "itrailer"}
  const ListFields: set<string> := {"trailers", "posters", "banners"}
  const BaseKeys: set<string> := FolderFields + JikanFields + KitsuFields + ImdbFields + ListFields

  /** The literal's folder-derived entries. */
  function FolderPart(f: Record): (m: Record)
    requires "name" in f
    ensures m.Keys == FolderFields
  {
    map[
      "AID" := FolderAid(f),
      "LET" := Get(f, "LET", Str(NA)),
      "NAME" := f["name"],
      "CNAME" := Get(f, "CNAME", Str(NA)),
      "CIDs" := Get(f, "CIDs", Str(NA))
    ]
  }

  /** The literal's entries read from the Jikan record, with their defaults. */
  function JikanPart(jikan: Record, name: Value): (m: Record)
    ensures m.Keys == JikanFields
  {
    map[
      "jname" := Get(jikan, "jname", name),
      "type" := Get(jikan, "type", Str(NA)),
      "jposter" := Get(jikan, "jposter", Str(NA)),
      "airing" := Get(jikan, "airing", Str("false")),
      "producers" := Get(jikan, "producers", Str(NA)),
      "studios" := Get(jikan, "studios", Str(NA)),
      "jtrailer" := Get(jikan, "jtrailer", Str(NA)),
      "listanime" := Get(jikan, "listanime", Str(NA))
    ]
  }

  /** The literal's entries read from the Kitsu record, with their defaults. */
  function KitsuPart(kitsu: Record): (m: Record)
    ensures m.Keys == KitsuFields
  {
    map[
      "kposter" := Get(kitsu, "kposter", Str(NA)),
      "ktrailer" := Get(kitsu, "ktrailer", Str(NA)),
      "synopsis" := Get(kitsu, "synopsis", Str(NoSynopsis))
    ]
  }

  /** The literal's entries read from the IMDb record, with their defaults. */
  function ImdbPart(imdb: Record): (m: Record)
    ensures m.Keys == ImdbFields
  {
    map["iposter" := Get(imdb, "iposter", Str(NA)), "itrailer" := Get(imdb, "itrailer", Str(NA))]
  }

  /** The literal's combined lists. */
  function ListPart(imdb: Record, jikan: Record, kitsu: Record): (m: Record)
    requires MediaReady(imdb, jikan, kitsu)
    ensures m.Keys == ListFields
  {
    var trailers, posters, banners :=
      Trailers(imdb, jikan, kitsu), Posters(imdb, jikan, kitsu), Banners(imdb, jikan, kitsu);
    map["trailers" := Str(trailers), "posters" := Str(posters), "banners" := Str(banners)]
  }

  /** The fixed part of the merged record, before the three sources are
      spread over it: the dict literal, its entries grouped by origin. */
  function Base(folder: Folder, imdb: Record, jikan: Record, kitsu: Record): (b: Record)
    requires HasName(folder)
    requires MediaReady(imdb, jikan, kitsu)
    ensures b.Keys == BaseKeys
  {
    var f := AsRecord(folder);
    FolderPart(f) + JikanPart(jikan, f["name"]) + KitsuPart(kitsu) + ImdbPart(imdb)
      + ListPart(imdb, jikan, kitsu)
  }

  /** `fetch_complete_data` for one folder: the base record with the Jikan,
      Kitsu and IMDb records spread over it in that order. Every base key is
      present, and IMDb's keys carry IMDb's values. */
  function Merge(folder: Folder, imdb: Option<Record>, jikan: Option<Record>, kitsu: Option<Record>): (r: Record)
    requires HasName(folder)
    requires MediaReady(Src(imdb), Src(jikan), Src(kitsu))
    ensures BaseKeys <= r.Keys
    ensures forall k :: k in Src(imdb) ==> k in r && r[k] == Src(imdb)[k]
  {
    var i, j, k := Src(imdb), Src(jikan), Src(kitsu);
    Base(folder, i, j, k) + j + k + i
  }

  /** The merged record has the base keys and the keys of the present
      sources, and no other. */
  lemma MergeKeys(folder: Folder, imdb: Option<Record>, jikan: Option<Record>, kitsu: Option<Record>)
    requires HasName(folder)
    requires MediaReady(Src(imdb), Src(jikan), Src(kitsu))
    ensures Merge(folder, imdb, jikan, kitsu).Keys == BaseKeys + Src(jikan).Keys + Src(kitsu).Keys + Src(imdb).Keys
  {
  }

  /** The three source records are what the fetchers build, or absent. */
  predicate Shaped(imdb: Option<Record>, jikan: Option<Record>, kitsu: Option<Record>) {
    && (imdb.Some? ==> ImdbShaped(imdb.value))
    && (jikan.Some? ==> JikanShaped(jikan.value))
    && (kitsu.Some? ==> KitsuShaped(kitsu.value))
  }

  lemma ShapedMediaReady(imdb: Option<Record>, jikan: Option<Record>, kitsu: Option<Record>)
    requires Shaped(imdb, jikan, kitsu)
    ensures MediaReady(Src(imdb), Src(jikan), Src(kitsu))
  {
  }

  /** With every source absent the merge is the dict literal with every
      default: names from the folder, sentinels elsewhere, empty combined
      lists, and no other key. */
  lemma MergeAllAbsent(folder: Folder)
    requires HasName(folder)
    ensures var r := Merge(folder, None, None, None);
      var n := FolderName(folder);
      && r.Keys == BaseKeys
      && r == FolderPart(AsRecord(folder))
        + map["jname" := n, "type" := Str(NA), "jposter" := Str(NA), "airing" := Str("false"),
              "producers" := Str(NA), "studios" := Str(NA), "jtrailer" := Str(NA), "listanime" := Str(NA)]
        + map["kposter" := Str(NA), "ktrailer" := Str(NA), "synopsis" := Str(NoSynopsis)]
        + map["iposter" := Str(NA), "itrailer" := Str(NA)]
        + map["trailers" := Str(""), "posters" := Str(""), "banners" := Str("")]
  {
    var e: Record := map[];
    ListsWhenAbsent();
    MergeIsSpread(folder, None, None, None);
    assert Merge(folder, None, None, None) == Base(folder, e, e, e);
  }

  /** Without a Jikan record every Jikan field takes its default; `jname`
      falls back to the folder's name. */
  lemma JikanDefaults(name: Value)
    ensures JikanPart(map[], name) == map[
      "jname" := name, "type" := Str(NA), "jposter" := Str(NA), "airing" := Str("false"),
      "producers" := Str(NA), "studios" := Str(NA), "jtrailer" := Str(NA), "listanime" := Str(NA)]
  {
  }

  /** Without a Kitsu record the posters and trailer are the sentinel and the
      synopsis is the stock sentence. */
  lemma KitsuDefaults()
    ensures KitsuPart(map[]) == map["kposter" := Str(NA), "ktrailer" := Str(NA), "synopsis" := Str(NoSynopsis)]
  {
  }

  /** Without an IMDb record its poster and trailer are the sentinel. */
  lemma ImdbDefaults()
    ensures ImdbPart(map[]) == map["iposter" := Str(NA), "itrailer" := Str(NA)]
  {
  }

  /** Without any source the combined lists are empty strings. */
  lemma ListsWhenAbsent()
    ensures MediaReady(map[], map[], map[])
    ensures ListPart(map[], map[], map[]) == map["trailers" := Str(""), "posters" := Str(""), "banners" := Str("")]
  {
    PresentAllFalsy([Null, Null, Null]);
    PresentAllFalsy([Null, Null]);
  }

  /** Spreading two dicts with disjoint keys commutes. */
  lemma SpreadCommutes(m: Record, a: Record, b: Record)
    requires a.Keys !! b.Keys
    ensures m + a + b == m + b + a
  {
    var x, y := m + a + b, m + b + a;
    assert x.Keys == y.Keys;
    forall k | k in x
      ensures x[k] == y[k]
    {
    }
  }

  /** For records the fetchers build, no source overrides another: each
      source's keys carry that source's values, and any spread order gives
      the same record. */
  lemma MergeNoOverride(folder: Folder, imdb: Option<Record>, jikan: Option<Record>, kitsu: Option<Record>)
    requires HasName(folder)
    requires Shaped(imdb, jikan, kitsu)
    ensures MediaReady(Src(imdb), Src(jikan), Src(kitsu))
    ensures var r := Merge(folder, imdb, jikan, kitsu);
      && (forall k :: k in Src(jikan) ==> k in r && r[k] == Src(jikan)[k])
      && (forall k :: k in Src(kitsu) ==> k in r && r[k] == Src(kitsu)[k])
      && (forall k :: k in Src(imdb) ==> k in r && r[k] == Src(imdb)[k])
    ensures var b := Base(folder, Src(imdb), Src(jikan), Src(kitsu));
      var r := Merge(folder, imdb, jikan, kitsu);
      && r == b + Src(jikan) + Src(imdb) + Src(kitsu)
      && r == b + Src(kitsu) + Src(jikan) + Src(imdb)
      && r == b + Src(kitsu) + Src(imdb) + Src(jikan)
      && r == b + Src(imdb) + Src(jikan) + Src(kitsu)
      && r == b + Src(imdb) + Src(kitsu) + Src(jikan)
  {
    var i, j, k := Src(imdb), Src(jikan), Src(kitsu);
    SourcesFromFetchers(imdb, jikan, kitsu);
    SourceKeysDisjoint();
    ShapedMediaReady(imdb, jikan, kitsu);
    MergeIsSpread(folder, imdb, jikan, kitsu);
    SpreadOrderFree(Base(folder, i, j, k), j, k, i);
  }

  /** `Merge` is the base record with the sources spread over it. */
  lemma MergeIsSpread(folder: Folder, imdb: Option<Record>, jikan: Option<Record>, kitsu: Option<Record>)
    requires HasName(folder)
    requires MediaReady(Src(imdb), Src(jikan), Src(kitsu))
    ensures Merge(folder, imdb, jikan, kitsu)
      == Base(folder, Src(imdb), Src(jikan), Src(kitsu)) + Src(jikan) + Src(kitsu) + Src(imdb)
  {
  }

  /** Spreading three dicts with pairwise disjoint keys: each keeps its
      values and the order does not matter. */
  lemma SpreadOrderFree(b: Record, j: Record, k: Record, i: Record)
    requires j.Keys !! k.Keys && j.Keys !! i.Keys && k.Keys !! i.Keys
    ensures var r := b + j + k + i;
      && (forall x :: x in j ==> x in r && r[x] == j[x])
      && (forall x :: x in k ==> x in r && r[x] == k[x])
      && (forall x :: x in i ==> x in r && r[x] == i[x])
      && r == b + j + i + k && r == b + k + j + i && r == b + k + i + j
      && r == b + i + j + k && r == b + i + k + j
  {
    SpreadCommutes(b + j, k, i);
    SpreadCommutes(b, j, k);
    SpreadCommutes(b + k, j, i);
    SpreadCommutes(b, j, i);
    SpreadCommutes(b + i, j, k);
    SpreadCommutes(b, k, i);
  }

  /** A key only the first of five spread dicts has keeps its value. */
  lemma SpreadFirst(a: Record, b: Record, c: Record, d: Record, e: Record, key: string)
    requires key in a && key !in b && key !in c && key !in d && key !in e
    ensures key in a + b + c + d + e && (a + b + c + d + e)[key] == a[key]
  {
  }

  /** A folder field of the base record is the folder part's entry: no later
      part of the literal has it. */
  lemma BaseFolderField(folder: Folder, imdb: Record, jikan: Record, kitsu: Record, key: string)
    requires HasName(folder)
    requires MediaReady(imdb, jikan, kitsu)
    requires key in FolderFields
    ensures Base(folder, imdb, jikan, kitsu)[key] == FolderPart(AsRecord(folder))[key]
  {
    var f := AsRecord(folder);
    var fp, jp, kp := FolderPart(f), JikanPart(jikan, f["name"]), KitsuPart(kitsu);
    var ip, lp := ImdbPart(imdb), ListPart(imdb, jikan, kitsu);
    assert Base(folder, imdb, jikan, kitsu) == fp + jp + kp + ip + lp;
    FolderFieldsApart();
    SpreadFirst(fp, jp, kp, ip, lp, key);
  }

  /** The base record's name comes from the folder. */
  lemma BaseName(folder: Folder, imdb: Record, jikan: Record, kitsu: Record)
    requires HasName(folder)
    requires MediaReady(imdb, jikan, kitsu)
    ensures Base(folder, imdb, jikan, kitsu)["NAME"] == FolderName(folder)
  {
    BaseFolderField(folder, imdb, jikan, kitsu, "NAME");
  }

  /** The base record's id comes from the folder. */
  lemma BaseAid(folder: Folder, imdb: Record, jikan: Record, kitsu: Record)
    requires HasName(folder)
    requires MediaReady(imdb, jikan, kitsu)
    ensures Base(folder, imdb, jikan, kitsu)["AID"] == FolderAid(AsRecord(folder))
  {
    BaseFolderField(folder, imdb, jikan, kitsu, "AID");
  }

  /** The base record's other folder fields come from the folder, with the
      sentinel as default. */
  lemma BaseFolderDefaults(folder: Folder, imdb: Record, jikan: Record, kitsu: Record)
    requires HasName(folder)
    requires MediaReady(imdb, jikan, kitsu)
    ensures var b := Base(folder, imdb, jikan, kitsu);
      var f := AsRecord(folder);
      && b["LET"] == Get(f, "LET", Str(NA))
      && b["CNAME"] == Get(f, "CNAME", Str(NA))
      && b["CIDs"] == Get(f, "CIDs", Str(NA))
  {
    BaseFolderField(folder, imdb, jikan, kitsu, "LET");
    BaseFolderField(folder, imdb, jikan, kitsu, "CNAME");
    BaseFolderField(folder, imdb, jikan, kitsu, "CIDs");
    FolderPartDefaults(AsRecord(folder));
  }

  /** The folder part reads `LET`, `CNAME` and `CIDs` with the sentinel as
      default. */
  lemma FolderPartDefaults(f: Record)
    requires "name" in f
    ensures FolderPart(f)["LET"] == Get(f, "LET", Str(NA))
    ensures FolderPart(f)["CNAME"] == Get(f, "CNAME", Str(NA))
    ensures FolderPart(f)["CIDs"] == Get(f, "CIDs", Str(NA))
  {
  }

  /** No folder field is read from a source or is a combined list. */
  lemma FolderFieldsApart()
    ensures forall key :: key in FolderFields ==>
      key !in JikanFields && key !in KitsuFields && key !in ImdbFields && key !in ListFields
  {
  }

  /** The combined lists of the base record. */
  lemma BaseMediaLists(folder: Folder, imdb: Record, jikan: Record, kitsu: Record)
    requires HasName(folder)
    requires MediaReady(imdb, jikan, kitsu)
    ensures var b := Base(folder, imdb, jikan, kitsu);
      && b["posters"] == Str(Posters(imdb, jikan, kitsu))
      && b["banners"] == Str(Banners(imdb, jikan, kitsu))
      && b["trailers"] == Str(Trailers(imdb, jikan, kitsu))
  {
    var lp := ListPart(imdb, jikan, kitsu);
    assert "posters" in lp && "banners" in lp && "trailers" in lp;
  }

  /** A key none of the spread dicts has keeps the base value. */
  lemma SpreadLookup(b: Record, j: Record, k: Record, i: Record, key: string)
    requires key in b && key !in j && key !in k && key !in i
    ensures key in b + j + k + i && (b + j + k + i)[key] == b[key]
  {
  }

  /** The source records hold at most the keys their fetchers write. */
  lemma SourcesFromFetchers(imdb: Option<Record>, jikan: Option<Record>, kitsu: Option<Record>)
    requires Shaped(imdb, jikan, kitsu)
    ensures Src(imdb).Keys <= ImdbKeys && Src(jikan).Keys <= JikanKeys && Src(kitsu).Keys <= KitsuKeys
  {
  }

  /** No source ever supplies a folder-derived field. */
  lemma FolderKeysNotSourced(key: string)
    requires key in {"NAME", "AID", "LET", "CNAME", "CIDs", "posters", "banners", "trailers"}
    ensures key !in JikanKeys && key !in KitsuKeys && key !in ImdbKeys
  {
  }

  /** Folder fields: `NAME` is the folder's name, `AID`, `LET`, `CNAME` and
      `CIDs` are read from the folder with their defaults, and no source
      overrides any of them. */
  lemma MergeFolderFields(folder: Folder, imdb: Option<Record>, jikan: Option<Record>, kitsu: Option<Record>)
    requires HasName(folder)
    requires Shaped(imdb, jikan, kitsu)
    ensures MediaReady(Src(imdb), Src(jikan), Src(kitsu))
    ensures var r := Merge(folder, imdb, jikan, kitsu);
      var f := AsRecord(folder);
      && "NAME" in r && r["NAME"] == FolderName(folder)
      && "AID" in r && r["AID"] == FolderAid(f)
      && "LET" in r && r["LET"] == Get(f, "LET", Str(NA))
      && "CNAME" in r && r["CNAME"] == Get(f, "CNAME", Str(NA))
      && "CIDs" in r && r["CIDs"] == Get(f, "CIDs", Str(NA))
  {
    ShapedMediaReady(imdb, jikan, kitsu);
    SourcesFromFetchers(imdb, jikan, kitsu);
    FolderKeysNotSourced("NAME");
    FolderKeysNotSourced("AID");
    FolderKeysNotSourced("LET");
    FolderKeysNotSourced("CNAME");
    FolderKeysNotSourced("CIDs");
    MergeKeepsFolderFields(folder, imdb, jikan, kitsu);
  }

  /** `AID` is the folder's truthy `AID`, else its truthy `aid`, else the
      sentinel. */
  lemma FolderAidCases(r: Record)
    ensures Truthy(Lookup(r, "AID")) ==> FolderAid(r) == r["AID"]
    ensures !Truthy(Lookup(r, "AID")) && Truthy(Lookup(r, "aid")) ==> FolderAid(r) == r["aid"]
    ensures !Truthy(Lookup(r, "AID")) && !Truthy(Lookup(r, "aid")) ==> FolderAid(r) == Str(NA)
  {
  }

  /** A bare folder string `s` reads as `{"name": s}`: its name is `s` and
      every other folder field takes its default. */
  lemma BareFolderDefaults(t: string)
    ensures HasName(Bare(t)) && FolderName(Bare(t)) == Str(t)
    ensures var f := AsRecord(Bare(t));
      && FolderAid(f) == Str(NA) && Get(f, "LET", Str(NA)) == Str(NA)
      && Get(f, "CNAME", Str(NA)) == Str(NA) && Get(f, "CIDs", Str(NA)) == Str(NA)
  {
  }

  /** The folder fields survive the spreads when no source has them. */
  lemma MergeKeepsFolderFields(folder: Folder, imdb: Option<Record>, jikan: Option<Record>, kitsu: Option<Record>)
    requires HasName(folder)
    requires MediaReady(Src(imdb), Src(jikan), Src(kitsu))
    requires forall key :: key in FolderFields ==> key !in Src(imdb) && key !in Src(jikan) && key !in Src(kitsu)
    ensures var r := Merge(folder, imdb, jikan, kitsu);
      var f := AsRecord(folder);
      && "NAME" in r && r["NAME"] == FolderName(folder)
      && "AID" in r && r["AID"] == FolderAid(f)
      && "LET" in r && r["LET"] == Get(f, "LET", Str(NA))
      && "CNAME" in r && r["CNAME"] == Get(f, "CNAME", Str(NA))
      && "CIDs" in r && r["CIDs"] == Get(f, "CIDs", Str(NA))
  {
    var i, j, k := Src(imdb), Src(jikan), Src(kitsu);
    var b := Base(folder, i, j, k);
    MergeIsSpread(folder, imdb, jikan, kitsu);
    BaseName(folder, i, j, k);
    BaseAid(folder, i, j, k);
    BaseFolderDefaults(folder, i, j, k);
    SpreadLookup(b, j, k, i, "NAME");
    SpreadLookup(b, j, k, i, "AID");
    SpreadLookup(b, j, k, i, "LET");
    SpreadLookup(b, j, k, i, "CNAME");
    SpreadLookup(b, j, k, i, "CIDs");
  }

  /** Posters join the truthy posters with `", "`, Kitsu's, Jikan's and
      IMDb's in that order; a missing or empty poster is skipped. With all
      three present that is the three of them joined. */
  lemma PostersInOrder(imdb: Record, jikan: Record, kitsu: Record)
    requires MediaReady(imdb, jikan, kitsu)
    ensures Posters(imdb, jikan, kitsu) ==
      Join(Kept(Lookup(kitsu, "kposter")) + Kept(Lookup(jikan, "jposter")) + Kept(Lookup(imdb, "iposter")), ", ")
    ensures Truthy(Lookup(kitsu, "kposter")) && Truthy(Lookup(jikan, "jposter")) && Truthy(Lookup(imdb, "iposter")) ==>
      Posters(imdb, jikan, kitsu) == kitsu["kposter"].s + ", " + jikan["jposter"].s + ", " + imdb["iposter"].s
  {
    var k, j, i := Lookup(kitsu, "kposter"), Lookup(jikan, "jposter"), Lookup(imdb, "iposter");
    PresentThree(k, j, i);
    if Truthy(k) && Truthy(j) && Truthy(i) {
      var ps := [k.s, j.s, i.s];
      assert Kept(k) + Kept(j) + Kept(i) == ps;
      assert ps[1..] == [j.s, i.s];
      assert [j.s, i.s][1..] == [i.s];
      assert Join(ps, ", ") == k.s + ", " + Join(ps[1..], ", ");
      assert Join(ps[1..], ", ") == j.s + ", " + i.s;
    }
  }

  /** Banners join the truthy banners with `", "`, Kitsu's `banner` then
      Jikan's `jbanner`; a missing or empty banner is skipped. */
  lemma BannersInOrder(imdb: Record, jikan: Record, kitsu: Record)
    requires MediaReady(imdb, jikan, kitsu)
    ensures Banners(imdb, jikan, kitsu) ==
      Join(Kept(Lookup(kitsu, "banner")) + Kept(Lookup(jikan, "jbanner")), ", ")
    ensures Truthy(Lookup(kitsu, "banner")) && Truthy(Lookup(jikan, "jbanner")) ==>
      Banners(imdb, jikan, kitsu) == kitsu["banner"].s + ", " + jikan["jbanner"].s
  {
    var k, j := Lookup(kitsu, "banner"), Lookup(jikan, "jbanner");
    PresentTwo(k, j);
    if Truthy(k) && Truthy(j) {
      var ps := [k.s, j.s];
      assert Kept(k) + Kept(j) == ps;
      assert ps[1..] == [j.s];
      assert Join(ps, ", ") == k.s + ", " + Join(ps[1..], ", ");
    }
  }

  /** Trailers join the truthy trailers with `", "`, Kitsu's `ktrailer` then
      Jikan's `jtrailer`; a missing or empty trailer is skipped. */
  lemma TrailersInOrder(imdb: Record, jikan: Record, kitsu: Record)
    requires MediaReady(imdb, jikan, kitsu)
    ensures Trailers(imdb, jikan, kitsu) ==
      Join(Kept(Lookup(kitsu, "ktrailer")) + Kept(Lookup(jikan, "jtrailer")), ", ")
    ensures Truthy(Lookup(kitsu, "ktrailer")) && Truthy(Lookup(jikan, "jtrailer")) ==>
      Trailers(imdb, jikan, kitsu) == kitsu["ktrailer"].s + ", " + jikan["jtrailer"].s
  {
    var k, j := Lookup(kitsu, "ktrailer"), Lookup(jikan, "jtrailer");
    PresentTwo(k, j);
    if Truthy(k) && Truthy(j) {
      var ps := [k.s, j.s];
      assert Kept(k) + Kept(j) == ps;
      assert ps[1..] == [j.s];
      assert Join(ps, ", ") == k.s + ", " + Join(ps[1..], ", ");
    }
  }

  /** With all three sources present, the merged lists join every non-empty
      medium in the fixed source order; a sentinel value counts as present
      and is kept. */
  lemma MergeMediaLists(folder: Folder, imdb: Record, jikan: Record, kitsu: Record)
    requires HasName(folder)
    requires Shaped(Some(imdb), Some(jikan), Some(kitsu))
    requires imdb["iposter"].s != "" && jikan["jposter"].s != "" && kitsu["kposter"].s != ""
    requires jikan["jbanner"].s != "" && kitsu["banner"].s != ""
    requires jikan["jtrailer"].s != "" && kitsu["ktrailer"].s != ""
    ensures MediaReady(imdb, jikan, kitsu)
    ensures var r := Merge(folder, Some(imdb), Some(jikan), Some(kitsu));
      && r["posters"] == Str(kitsu["kposter"].s + ", " + jikan["jposter"].s + ", " + imdb["iposter"].s)
      && r["banners"] == Str(kitsu["banner"].s + ", " + jikan["jbanner"].s)
      && r["trailers"] == Str(kitsu["ktrailer"].s + ", " + jikan["jtrailer"].s)
  {
    BaseMediaLists(folder, imdb, jikan, kitsu);
    PostersInOrder(imdb, jikan, kitsu);
    BannersInOrder(imdb, jikan, kitsu);
    TrailersInOrder(imdb, jikan, kitsu);
    FolderKeysNotSourced("posters");
    FolderKeysNotSourced("banners");
    FolderKeysNotSourced("trailers");
  }

  /** For records the fetchers build, whichever sources are present, the
      merged combined lists are the filtered joins of the present media. */
  lemma MergeMediaListsAny(folder: Folder, imdb: Option<Record>, jikan: Option<Record>, kitsu: Option<Record>)
    requires HasName(folder)
    requires Shaped(imdb, jikan, kitsu)
    ensures MediaReady(Src(imdb), Src(jikan), Src(kitsu))
    ensures var r := Merge(folder, imdb, jikan, kitsu);
      && r["posters"] == Str(Posters(Src(imdb), Src(jikan), Src(kitsu)))
      && r["banners"] == Str(Banners(Src(imdb), Src(jikan), Src(kitsu)))
      && r["trailers"] == Str(Trailers(Src(imdb), Src(jikan), Src(kitsu)))
  {
    ShapedMediaReady(imdb, jikan, kitsu);
    SourcesFromFetchers(imdb, jikan, kitsu);
    BaseMediaLists(folder, Src(imdb), Src(jikan), Src(kitsu));
    FolderKeysNotSourced("posters");
    FolderKeysNotSourced("banners");
    FolderKeysNotSourced("trailers");
  }

  /** Lower-case `name` and `aid` are not among the merged keys. */
  lemma NoLowerCaseKeys()
    ensures "name" !in BaseKeys && "aid" !in BaseKeys
    ensures "name" !in JikanKeys && "aid" !in JikanKeys
    ensures "name" !in KitsuKeys && "aid" !in KitsuKeys
    ensures "name" !in ImdbKeys && "aid" !in ImdbKeys
  {
    LowerCaseNotBase();
    LowerCaseNotSourced();
  }

  /** No group of the dict literal has a lower-case `name` or `aid`. */
  lemma LowerCaseNotBase()
    ensures "name" !in FolderFields && "aid" !in FolderFields
    ensures "name" !in JikanFields && "aid" !in JikanFields
    ensures "name" !in KitsuFields && "aid" !in KitsuFields
    ensures "name" !in ImdbFields && "aid" !in ImdbFields
    ensures "name" !in ListFields && "aid" !in ListFields
  {
  }

  /** No fetcher writes a lower-case `name` or `aid`. */
  lemma LowerCaseNotSourced()
    ensures "name" !in JikanKeys && "aid" !in JikanKeys
    ensures "name" !in KitsuKeys && "aid" !in KitsuKeys
    ensures "name" !in ImdbKeys && "aid" !in ImdbKeys
  {
  }

  /** The record has every field of the merged dict literal. */
  predicate HasBaseFields(r: Record) {
    BaseKeys <= r.Keys
  }

  /** A merged catalog record for the title `name`: the name under `NAME`,
      and neither a lower-case `name` nor an `aid` key. */
  predicate Catalogued(r: Record, name: Value) {
    && "NAME" in r && r["NAME"] == name
    && "name" !in r && "aid" !in r
  }

  /** What the three services (and Jikan's two follow-up endpoints) answered
      for one title. */
  datatype Responses = Responses(
    imdb: Fetched<ImdbMovie>,
    jikan: Fetched<JikanItem>,
    relations: RelationsResponse,
    recs: RecsResponse,
    kitsu: Fetched<KitsuItem>)

  /** One iteration of `fetch_complete_data`: fetch from the three sources
      and merge. The record has every base field, is named by `NAME` from the
      folder, and carries neither a `name` nor an `aid` key. */
  function Enrich(folder: Folder, resp: Responses, post: string -> RelayResponse): (r: Record)
    requires HasName(folder)
    ensures HasBaseFields(r)
    ensures Catalogued(r, FolderName(folder))
  {
    var imdb := FetchImdb(resp.imdb, post);
    var jikan := FetchJikan(resp.jikan, resp.relations, resp.recs, post);
    var kitsu := FetchKitsu(resp.kitsu, post);
    MergeFolderFields(folder, imdb, jikan, kitsu);
    NoLowerCaseKeys();
    Merge(folder, imdb, jikan, kitsu)
  }

  /** `rs` holds one merged record per folder, in folder order: each has
      every base field and is catalogued under its folder's name. */
  predicate MergedFrom(rs: seq<Record>, folders: seq<Folder>)
    requires forall i :: 0 <= i < |folders| ==> HasName(folders[i])
  {
    && |rs| == |folders|
    && (forall i :: 0 <= i < |rs| ==> HasBaseFields(rs[i]))
    && (forall i :: 0 <= i < |rs| ==> Catalogued(rs[i], FolderName(folders[i])))
  }

  /** The `for folder in folders` loop of `fetch_complete_data`: `each`
      applied to every folder, results kept in folder order. */
  function MapFolders(folders: seq<Folder>, each: Folder --> Record): (rs: seq<Record>)
    requires forall i :: 0 <= i < |folders| ==> each.requires(folders[i])
    ensures |rs| == |folders|
    ensures forall i :: 0 <= i < |rs| ==> rs[i] == each(folders[i])
    decreases |folders|
  {
    if |folders| == 0 then []
    else [each(folders[0])] + MapFolders(folders[1..], each)
  }

  /** One iteration of `fetch_complete_data`: the folder merged with the
      services' answers for its name. */
  function EnrichFolder(lookup: Value -> Responses, post: string -> RelayResponse): (each: Folder --> Record)
    ensures forall f :: HasName(f) ==> each.requires(f)
  {
    (f: Folder) requires HasName(f) => Enrich(f, lookup(FolderName(f)), post)
  }

  /** Every iteration of `fetch_complete_data` yields a catalogued record
      with every base field. */
  lemma EnrichFolderMerged(lookup: Value -> Responses, post: string -> RelayResponse)
    ensures forall f :: HasName(f) ==>
      HasBaseFields(EnrichFolder(lookup, post)(f)) && Catalogued(EnrichFolder(lookup, post)(f), FolderName(f))
  {
    forall f | HasName(f)
      ensures HasBaseFields(EnrichFolder(lookup, post)(f)) && Catalogued(EnrichFolder(lookup, post)(f), FolderName(f))
    {
      EnrichFolderAt(lookup, post, f);
    }
  }

  /** Applying the iteration step to a named folder merges it with the
      answers for its name. */
  lemma EnrichFolderAt(lookup: Value -> Responses, post: string -> RelayResponse, f: Folder)
    requires HasName(f)
    ensures EnrichFolder(lookup, post)(f) == Enrich(f, lookup(FolderName(f)), post)
  {
  }

  /** Applying to every folder a step that yields a catalogued record with
      every base field gives one such record per folder. */
  lemma MapFoldersMerged(folders: seq<Folder>, each: Folder --> Record)
    requires forall i :: 0 <= i < |folders| ==> HasName(folders[i]) && each.requires(folders[i])
    requires forall i :: 0 <= i < |folders| ==>
      HasBaseFields(each(folders[i])) && Catalogued(each(folders[i]), FolderName(folders[i]))
    ensures MergedFrom(MapFolders(folders, each), folders)
  {
  }

  /** `fetch_complete_data(folders)`, with the services' answers looked up by
      title: one merged record per folder, in folder order
      (`FetchCompleteDataIsEnrich` says which record). */
  function FetchCompleteData(folders: seq<Folder>, lookup: Value -> Responses,
                             post: string -> RelayResponse): (rs: seq<Record>)
    requires forall i :: 0 <= i < |folders| ==> HasName(folders[i])
    ensures MergedFrom(rs, folders)
  {
    var each := EnrichFolder(lookup, post);
    EnrichFolderMerged(lookup, post);
    MapFoldersMerged(folders, each);
    MapFolders(folders, each)
  }

  /** The `i`-th record `fetch_complete_data` returns is the merge of the
      `i`-th folder with the answers for that folder's name. */
  lemma FetchCompleteDataAt(folders: seq<Folder>, lookup: Value -> Responses,
                            post: string -> RelayResponse, i: int)
    requires forall i :: 0 <= i < |folders| ==> HasName(folders[i])
    requires 0 <= i < |folders|
    ensures |FetchCompleteData(folders, lookup, post)| == |folders|
    ensures FetchCompleteData(folders, lookup, post)[i] == Enrich(folders[i], lookup(FolderName(folders[i])), post)
  {
  }

  /** Each record `fetch_complete_data` returns is the merge of its own
      folder with the services' answers for that folder's name. */
  lemma FetchCompleteDataIsEnrich(folders: seq<Folder>, lookup: Value -> Responses,
                                  post: string -> RelayResponse)
    requires forall i :: 0 <= i < |folders| ==> HasName(folders[i])
    ensures var rs := FetchCompleteData(folders, lookup, post);
      forall i :: 0 <= i < |rs| ==> rs[i] == Enrich(folders[i], lookup(FolderName(folders[i])), post)
  {
    forall i | 0 <= i < |FetchCompleteData(folders, lookup, post)|
      ensures FetchCompleteData(folders, lookup, post)[i] == Enrich(folders[i], lookup(FolderName(folders[i])), post)
    {
      FetchCompleteDataAt(folders, lookup, post, i);
    }
  }

}

=== FILE: pipeline.dfy ===
/** `perform_check` driving the real `fetch_complete_data`: what one pass
    does to the stored names, why re-running a pass that added titles is not a
    no-op as written, and the corrected merge under which it is. */
module Pipeline {
  import opened Wrappers
  import opened PyValue
  import opened Enrichers
  import opened Merger
  import opened Reconciler

  /** Every listing entry handed to the merger can be read by `["name"]`. */
  predicate AllNamed(xs: seq<Record>) {
    forall i :: 0 <= i < |xs| ==> "name" in xs[i]
  }

  /** The listing entries as folder items. */
  function Folders(xs: seq<Record>): (fs: seq<Folder>)
    ensures |fs| == |xs|
    ensures forall i :: 0 <= i < |xs| ==> fs[i] == Entry(xs[i])
  {
    seq(|xs|, i requires 0 <= i < |xs| => Entry(xs[i]))
  }

  /** `fetch_complete_data` as `perform_check` calls it, with the services'
      answers looked up by title. A list with an unnamed entry would raise in
      Python; `perform_check` never passes one (see `EntriesAreNamed`). */
  function Fetch(lookup: Value -> Responses, post: string -> RelayResponse): (f: seq<Record> -> seq<Record>)
    ensures forall xs :: AllNamed(xs) ==> |f(xs)| == |xs|
  {
    (xs: seq<Record>) => if AllNamed(xs) then FetchCompleteData(Folders(xs), lookup, post) else []
  }

  /** `out` holds one record per entry of `xs`, in order, each catalogued
      under its entry's name. */
  predicate CataloguedFrom(out: seq<Record>, xs: seq<Record>)
    requires AllNamed(xs)
  {
    |out| == |xs| && forall i :: 0 <= i < |xs| ==> Catalogued(out[i], xs[i]["name"])
  }

  /** What the pass relies on from the merger: named entries in, one
      catalogued record per entry out. */
  ghost predicate Catalogues(fetch: seq<Record> -> seq<Record>) {
    forall xs :: AllNamed(xs) ==> CataloguedFrom(fetch(xs), xs)
  }

  /** The merger has that property. */
  lemma MergerCatalogues(lookup: Value -> Responses, post: string -> RelayResponse)
    ensures Catalogues(Fetch(lookup, post))
  {
    forall xs | AllNamed(xs)
      ensures CataloguedFrom(Fetch(lookup, post)(xs), xs)
    {
      FoldersNamed(xs);
      MergedCatalogued(FetchCompleteData(Folders(xs), lookup, post), xs);
    }
  }

  /** The folder items of named entries carry the entries' names. */
  lemma FoldersNamed(xs: seq<Record>)
    requires AllNamed(xs)
    ensures forall i :: 0 <= i < |xs| ==> HasName(Folders(xs)[i]) && FolderName(Folders(xs)[i]) == xs[i]["name"]
  {
  }

  /** Records merged from the folder items are catalogued under the
      entries' names. */
  lemma MergedCatalogued(out: seq<Record>, xs: seq<Record>)
    requires AllNamed(xs)
    requires forall i :: 0 <= i < |xs| ==> HasName(Folders(xs)[i])
    requires MergedFrom(out, Folders(xs))
    ensures CataloguedFrom(out, xs)
  {
    FoldersNamed(xs);
  }

  /** The entries of a listed (truthy) name all carry that name. */
  lemma EntriesAreNamed(cloud: seq<Record>, n: Value)
    requires Truthy(n)
    ensures AllNamed(EntriesNamed(cloud, n))
    ensures forall i :: 0 <= i < |EntriesNamed(cloud, n)| ==> EntriesNamed(cloud, n)[i]["name"] == n
  {
    var es := EntriesNamed(cloud, n);
    forall i | 0 <= i < |es|
      ensures "name" in es[i] && es[i]["name"] == n
    {
      assert es[i] in es;
    }
  }

  /** For a listed name the merger returns one record per listing entry,
      at least one, each named by `NAME` and carrying no `name`. */
  lemma FetchListed(cloud: seq<Record>, n: Value, fetch: seq<Record> -> seq<Record>)
    requires Catalogues(fetch)
    requires n in Names(cloud)
    ensures |fetch(EntriesNamed(cloud, n))| == |EntriesNamed(cloud, n)| > 0
    ensures forall i :: 0 <= i < |EntriesNamed(cloud, n)| ==> Catalogued(fetch(EntriesNamed(cloud, n))[i], n)
  {
    var es := EntriesNamed(cloud, n);
    NamesMember(cloud, n);
    var k :| 0 <= k < |cloud| && NameOf(cloud[k]) == n;
    assert cloud[k] in es;
    EntriesAreNamed(cloud, n);
    assert CataloguedFrom(fetch(es), es);
  }

  /** What the merger fetched for the names of an order carries no `name`. */
  lemma {:induction false} AllFetchedUnnamed(cloud: seq<Record>, fetch: seq<Record> -> seq<Record>,
                                             order: seq<Value>)
    requires Catalogues(fetch)
    requires forall k :: 0 <= k < |order| ==> order[k] in Names(cloud)
    ensures forall j :: 0 <= j < |AllFetched(cloud, fetch, order)| ==> "name" !in AllFetched(cloud, fetch, order)[j]
    decreases |order|
  {
    if |order| > 0 {
      var all := AllFetched(cloud, fetch, order);
      var block := fetch(EntriesNamed(cloud, order[0]));
      var rest := AllFetched(cloud, fetch, order[1..]);
      FetchListed(cloud, order[0], fetch);
      AllFetchedUnnamed(cloud, fetch, order[1..]);
      assert all == block + rest;
      forall j | 0 <= j < |all|
        ensures "name" !in all[j]
      {
        if j < |block| {
          assert all[j] == block[j];
          assert Catalogued(block[j], order[0]);
        } else {
          assert all[j] == rest[j - |block|];
        }
      }
    }
  }

  /** A list of records without a `name` key has no names. */
  lemma NamesOfUnnamed(xs: seq<Record>)
    requires forall j :: 0 <= j < |xs| ==> "name" !in xs[j]
    ensures Names(xs) == {}
  {
    forall n | n in Names(xs)
      ensures false
    {
      NamesMember(xs, n);
    }
  }

  /** Removing names from a list removes them from its name set. */
  lemma NamesOfKeep(xs: seq<Record>, s: set<Value>)
    ensures Names(Keep(xs, s)) == Names(xs) - s
  {
    var ys := Keep(xs, s);
    forall n | n in Names(ys)
      ensures n in Names(xs) - s
    {
      NamesMember(ys, n);
      var i :| 0 <= i < |ys| && NameOf(ys[i]) == n;
      assert ys[i] in ys;
      NamesMember(xs, n);
    }
    forall n | n in Names(xs) - s
      ensures n in Names(ys)
    {
      NamesMember(xs, n);
      var i :| 0 <= i < |xs| && NameOf(xs[i]) == n;
      assert xs[i] in ys;
      var k :| 0 <= k < |ys| && ys[k] == xs[i];
      NamesMember(ys, n);
    }
  }

  /** The records a pass appends, after the stored ones. */
  function Appended(cloud: seq<Record>, fetch: seq<Record> -> seq<Record>, db: seq<Record>,
                    newOrder: seq<Value>): (tail: seq<Record>)
    requires AidsAreInts(db)
    ensures Extends(db, db + tail, AllFetched(cloud, fetch, newOrder))
  {
    AppendNewContent(cloud, fetch, db, newOrder);
    AppendedSplit(cloud, fetch, db, newOrder);
    AppendNew(cloud, fetch, db, newOrder)[|db|..]
  }

  /** The names of the catalog a pass writes: the stored names and the
      names of what was fetched, less the deleted ones. */
  lemma PassNames(cloud: seq<Record>, db: seq<Record>, newOrder: seq<Value>, delOrder: seq<Value>,
                  fetch: seq<Record> -> seq<Record>)
    requires AidsAreInts(db)
    requires ValidOrders(cloud, db, newOrder, delOrder)
    ensures var d := Classify(cloud, db);
      Names(Reconcile(cloud, db, newOrder, delOrder, fetch).db)
        == (Names(db) - d.removed) + (Names(AllFetched(cloud, fetch, newOrder)) - d.removed)
  {
    var d := Classify(cloud, db);
    var tail := Appended(cloud, fetch, db, newOrder);
    var all := AllFetched(cloud, fetch, newOrder);
    ReconcileShape(cloud, db, newOrder, delOrder, fetch);
    forall j | 0 <= j < |tail|
      ensures WithoutAid(tail[j]) == WithoutAid(all[j])
    {
      assert (db + tail)[|db| + j] == tail[j];
    }
    NamesIgnoreAid(tail, all);
    NamesOfKeep(tail, d.removed);
    NamesOfKeep(db, d.removed);
    NamesOfAppend(Keep(db, d.removed), Keep(tail, d.removed));
  }

  /** As written: the catalog a pass writes has exactly the kept names. The
      titles it added are stored under `NAME`, which the next pass does not
      read. */
  lemma PassNamesAsWritten(cloud: seq<Record>, db: seq<Record>, newOrder: seq<Value>, delOrder: seq<Value>,
                           fetch: seq<Record> -> seq<Record>)
    requires Catalogues(fetch)
    requires AidsAreInts(db)
    requires ValidOrders(cloud, db, newOrder, delOrder)
    ensures Names(Reconcile(cloud, db, newOrder, delOrder, fetch).db) == Classify(cloud, db).kept
  {
    var d := Classify(cloud, db);
    PassNames(cloud, db, newOrder, delOrder, fetch);
    EnumeratedSet(newOrder, d.added);
    AllFetchedUnnamed(cloud, fetch, newOrder);
    NamesOfUnnamed(AllFetched(cloud, fetch, newOrder));
  }

  /** As written, a pass over a listing with new titles is not a no-op the
      second time: with the listing unchanged and the written catalog read
      back, the same titles are new again and are appended again. */
  lemma RerunAsWritten(cloud: seq<Record>, db: seq<Record>, newOrder: seq<Value>, delOrder: seq<Value>,
                       fetch: seq<Record> -> seq<Record>, newOrder2: seq<Value>, delOrder2: seq<Value>)
    requires Catalogues(fetch)
    requires AidsAreInts(db)
    requires ValidOrders(cloud, db, newOrder, delOrder)
    requires Classify(cloud, db).added != {}
    requires var db1 := Reconcile(cloud, db, newOrder, delOrder, fetch).db;
      AidsAreInts(db1) && ValidOrders(cloud, db1, newOrder2, delOrder2)
    ensures var db1 := Reconcile(cloud, db, newOrder, delOrder, fetch).db;
      && Classify(cloud, db1).added == Classify(cloud, db).added
      && Reconcile(cloud, db1, newOrder2, delOrder2, fetch).Update?
  {
    var db1 := Reconcile(cloud, db, newOrder, delOrder, fetch).db;
    var d := Classify(cloud, db);
    PassNamesAsWritten(cloud, db, newOrder, delOrder, fetch);
    NoChangeIff(cloud, db1, newOrder2, delOrder2, fetch);
    var n :| n in d.added;
    FetchListed(cloud, n, fetch);
  }

  /** A one-entry listing has that entry's name and no other. */
  lemma NamesOfSingle(n: Value)
    requires Truthy(n)
    ensures Names([map["name" := n]]) == {n}
  {
    var xs: seq<Record> := [map["name" := n]];
    assert NameOf(xs[0]) == n;
    NamesMember(xs, n);
  }

  /** The smallest case, on the merger itself: one listed title and an empty
      catalog. The first pass stores it with id 1; the second pass, over the
      catalog the first one wrote, stores it again. */
  lemma AlphaTwice(lookup: Value -> Responses, post: string -> RelayResponse)
    ensures var cloud := [map["name" := Str("Alpha")]];
      var fetch := Fetch(lookup, post);
      && ValidOrders(cloud, [], [Str("Alpha")], [])
      && var o1 := Reconcile(cloud, [], [Str("Alpha")], [], fetch);
      && o1.Update? && |o1.db| == 1 && "aid" in o1.db[0] && o1.db[0]["aid"] == Int(1)
      && AidsAreInts(o1.db) && ValidOrders(cloud, o1.db, [Str("Alpha")], [])
      && var o2 := Reconcile(cloud, o1.db, [Str("Alpha")], [], fetch);
         o2.Update? && |o2.db| == 2
  {
    MergerCatalogues(lookup, post);
    TwiceAppended(Str("Alpha"), Fetch(lookup, post));
  }

  /** A pass with one new name and nothing to delete writes the catalog
      with that name's records appended. */
  lemma PassOneNew(cloud: seq<Record>, db: seq<Record>, n: Value, fetch: seq<Record> -> seq<Record>)
    requires AidsAreInts(db)
    requires ValidOrders(cloud, db, [n], [])
    ensures Reconcile(cloud, db, [n], [], fetch).db == Step(cloud, fetch, db, n)
  {
    var st := Step(cloud, fetch, db, n);
    assert [n][1..] == [];
    assert AppendNew(cloud, fetch, st, []) == st;
    assert AppendNew(cloud, fetch, db, [n]) == st;
    assert RemoveAll(st, []) == st;
  }

  /** The one-entry listing of `alpha` against a catalog without names:
      `alpha` is new and nothing is deleted. */
  lemma SingleListing(alpha: Value, db: seq<Record>)
    requires Truthy(alpha)
    requires Names(db) == {}
    ensures var cloud: seq<Record> := [map["name" := alpha]];
      && ValidOrders(cloud, db, [alpha], [])
      && EntriesNamed(cloud, alpha) == cloud
      && alpha in Names(cloud)
  {
    var cloud: seq<Record> := [map["name" := alpha]];
    NamesOfSingle(alpha);
    assert Elems([alpha]) == {alpha};
    assert cloud[0] in EntriesNamed(cloud, alpha);
  }

  /** The same for any merger with the property the pass relies on. */
  lemma TwiceAppended(alpha: Value, fetch: seq<Record> -> seq<Record>)
    requires Catalogues(fetch)
    requires Truthy(alpha)
    ensures var cloud := [map["name" := alpha]];
      && ValidOrders(cloud, [], [alpha], [])
      && var o1 := Reconcile(cloud, [], [alpha], [], fetch);
      && o1.Update? && |o1.db| == 1 && "aid" in o1.db[0] && o1.db[0]["aid"] == Int(1)
      && AidsAreInts(o1.db) && ValidOrders(cloud, o1.db, [alpha], [])
      && var o2 := Reconcile(cloud, o1.db, [alpha], [], fetch);
         o2.Update? && |o2.db| == 2
  {
    var cloud: seq<Record> := [map["name" := alpha]];
    assert Names([]) == {};
    SingleListing(alpha, []);
    FetchListed(cloud, alpha, fetch);
    var o1 := Reconcile(cloud, [], [alpha], [], fetch);
    PassOneNew(cloud, [], alpha, fetch);
    PassNamesAsWritten(cloud, [], [alpha], [], fetch);
    ReconcileAidsAreInts(cloud, [], [alpha], [], fetch);
    SingleListing(alpha, o1.db);
    PassOneNew(cloud, o1.db, alpha, fetch);
  }

  /** The corrected merge: every merged record also carries the folder's name
      under `name`, the key the pass matches on. */
  function NameRecords(rs: seq<Record>): (out: seq<Record>)
    ensures |out| == |rs|
    ensures forall i :: 0 <= i < |rs| ==>
      && "name" in out[i] && out[i]["name"] == Lookup(rs[i], "NAME")
      && out[i] - {"name"} == rs[i] - {"name"}
  {
    seq(|rs|, i requires 0 <= i < |rs| => rs[i]["name" := Lookup(rs[i], "NAME")])
  }

  /** A merger followed by the correction. */
  function Named(fetch: seq<Record> -> seq<Record>): seq<Record> -> seq<Record> {
    (xs: seq<Record>) => NameRecords(fetch(xs))
  }

  /** The corrected `fetch_complete_data`. */
  function FetchNamed(lookup: Value -> Responses, post: string -> RelayResponse): seq<Record> -> seq<Record> {
    Named(Fetch(lookup, post))
  }

  /** Records catalogued under one name, once corrected, all carry that name. */
  lemma NamesOfCorrected(raw: seq<Record>, n: Value)
    requires |raw| > 0 && Truthy(n)
    requires forall j :: 0 <= j < |raw| ==> Catalogued(raw[j], n)
    ensures Names(NameRecords(raw)) == {n}
  {
    var block := NameRecords(raw);
    forall j | 0 <= j < |block|
      ensures NameOf(block[j]) == n
    {
      assert Catalogued(raw[j], n);
    }
    forall m | m in Names(block)
      ensures m == n
    {
      NamesMember(block, m);
    }
    assert NameOf(block[0]) == n;
    NamesMember(block, n);
  }

  /** With the correction, the records fetched for a listed name carry
      exactly that name. */
  lemma BlockNamed(cloud: seq<Record>, n: Value, fetch: seq<Record> -> seq<Record>)
    requires Catalogues(fetch)
    requires n in Names(cloud)
    ensures Names(Named(fetch)(EntriesNamed(cloud, n))) == {n}
  {
    var raw := fetch(EntriesNamed(cloud, n));
    FetchListed(cloud, n, fetch);
    NamesMember(cloud, n);
    NamesOfCorrected(raw, n);
  }

  /** With the correction, what is fetched for the names of an order carries
      exactly those names. */
  lemma {:induction false} AllFetchedNamed(cloud: seq<Record>, fetch: seq<Record> -> seq<Record>,
                                           order: seq<Value>)
    requires Catalogues(fetch)
    requires forall k :: 0 <= k < |order| ==> order[k] in Names(cloud)
    ensures Names(AllFetched(cloud, Named(fetch), order)) == Elems(order)
    decreases |order|
  {
    if |order| == 0 {
      assert Elems(order) == {};
      assert Names([]) == {};
    } else {
      var n := order[0];
      var block := Named(fetch)(EntriesNamed(cloud, n));
      var rest := AllFetched(cloud, Named(fetch), order[1..]);
      BlockNamed(cloud, n, fetch);
      AllFetchedNamed(cloud, fetch, order[1..]);
      NamesOfAppend(block, rest);
      assert AllFetched(cloud, Named(fetch), order) == block + rest;
      assert Elems(order) == {n} + Elems(order[1..]);
    }
  }

  /** Two lists that agree record for record up to the id have the same
      names. */
  lemma NamesIgnoreAid(xs: seq<Record>, ys: seq<Record>)
    requires |xs| == |ys|
    requires forall j :: 0 <= j < |xs| ==> WithoutAid(xs[j]) == WithoutAid(ys[j])
    ensures Names(xs) == Names(ys)
  {
    forall j | 0 <= j < |xs|
      ensures NameOf(xs[j]) == NameOf(ys[j])
    {
      assert "name" in xs[j] <==> "name" in WithoutAid(xs[j]);
      assert "name" in ys[j] <==> "name" in WithoutAid(ys[j]);
      if "name" in xs[j] {
        assert xs[j]["name"] == WithoutAid(xs[j])["name"];
        assert ys[j]["name"] == WithoutAid(ys[j])["name"];
      }
    }
    forall n | n in Names(xs)
      ensures n in Names(ys)
    {
      NamesMember(xs, n);
      NamesMember(ys, n);
    }
    forall n | n in Names(ys)
      ensures n in Names(xs)
    {
      NamesMember(xs, n);
      NamesMember(ys, n);
    }
  }

  /** Corrected: the catalog a pass writes has exactly the listed names. */
  lemma PassNamesCorrected(cloud: seq<Record>, db: seq<Record>, newOrder: seq<Value>, delOrder: seq<Value>,
                           fetch: seq<Record> -> seq<Record>)
    requires Catalogues(fetch)
    requires AidsAreInts(db)
    requires ValidOrders(cloud, db, newOrder, delOrder)
    ensures Names(Reconcile(cloud, db, newOrder, delOrder, Named(fetch)).db) == Names(cloud)
  {
    var d := Classify(cloud, db);
    PassNames(cloud, db, newOrder, delOrder, Named(fetch));
    EnumeratedSet(newOrder, d.added);
    AllFetchedNamed(cloud, fetch, newOrder);
  }

  /** The written catalog still has integer ids. */
  lemma ReconcileAidsAreInts(cloud: seq<Record>, db: seq<Record>, newOrder: seq<Value>, delOrder: seq<Value>,
                             fetch: seq<Record> -> seq<Record>)
    requires AidsAreInts(db)
    requires ValidOrders(cloud, db, newOrder, delOrder)
    ensures AidsAreInts(Reconcile(cloud, db, newOrder, delOrder, fetch).db)
  {
    var out := Reconcile(cloud, db, newOrder, delOrder, fetch).db;
    var a := AppendNew(cloud, fetch, db, newOrder);
    UpdatedIsKeep(cloud, db, newOrder, delOrder, fetch);
    forall i | 0 <= i < |out|
      ensures IntAid(out[i])
    {
      assert out[i] in out;
      assert out[i] in a;
    }
  }

  /** Corrected: a pass is idempotent. Run again on the catalog it wrote,
      with the listing unchanged, it hands the catalog on unchanged, whatever
      order the sets are visited in. */
  lemma RerunCorrected(cloud: seq<Record>, db: seq<Record>, newOrder: seq<Value>, delOrder: seq<Value>,
                       fetch: seq<Record> -> seq<Record>)
    requires Catalogues(fetch)
    requires AidsAreInts(db)
    requires ValidOrders(cloud, db, newOrder, delOrder)
    ensures var db1 := Reconcile(cloud, db, newOrder, delOrder, Named(fetch)).db;
      && AidsAreInts(db1) && ValidOrders(cloud, db1, [], [])
      && Reconcile(cloud, db1, [], [], Named(fetch)) == NoChange(db1)
  {
    var nf := Named(fetch);
    var db1 := Reconcile(cloud, db, newOrder, delOrder, nf).db;
    PassNamesCorrected(cloud, db, newOrder, delOrder, fetch);
    ReconcileAidsAreInts(cloud, db, newOrder, delOrder, nf);
    assert Classify(cloud, db1).added == {} && Classify(cloud, db1).removed == {};
    NoChangeIff(cloud, db1, [], [], nf);
  }

  /** Corrected, on the merger itself: a pass is idempotent. */
  lemma RerunMergedCorrected(cloud: seq<Record>, db: seq<Record>, newOrder: seq<Value>, delOrder: seq<Value>,
                             lookup: Value -> Responses, post: string -> RelayResponse)
    requires AidsAreInts(db)
    requires ValidOrders(cloud, db, newOrder, delOrder)
    ensures var db1 := Reconcile(cloud, db, newOrder, delOrder, FetchNamed(lookup, post)).db;
      && AidsAreInts(db1) && ValidOrders(cloud, db1, [], [])
      && Reconcile(cloud, db1, [], [], FetchNamed(lookup, post)) == NoChange(db1)
  {
    MergerCatalogues(lookup, post);
    RerunCorrected(cloud, db, newOrder, delOrder, Fetch(lookup, post));
  }

  /** The pass writes the catalog exactly when the listed and stored names
      differ, with or without the correction. */
  lemma NoChangeIffSameNames(cloud: seq<Record>, db: seq<Record>, newOrder: seq<Value>, delOrder: seq<Value>,
                             fetch: seq<Record> -> seq<Record>)
    requires Catalogues(fetch)
    requires AidsAreInts(db)
    requires ValidOrders(cloud, db, newOrder, delOrder)
    ensures Reconcile(cloud, db, newOrder, delOrder, Named(fetch)).NoChange? <==> Names(cloud) == Names(db)
    ensures Reconcile(cloud, db, newOrder, delOrder, fetch).NoChange? <==> Names(cloud) == Names(db)
  {
    var d := Classify(cloud, db);
    NoChangeIff(cloud, db, newOrder, delOrder, Named(fetch));
    NoChangeIff(cloud, db, newOrder, delOrder, fetch);
    if d.added != {} {
      var n :| n in d.added;
      FetchListed(cloud, n, fetch);
      assert |Named(fetch)(EntriesNamed(cloud, n))| == |fetch(EntriesNamed(cloud, n))|;
    }
  }
}

=== FILE: pystr.dfy ===
/** The few Python string operations the pipeline relies on, with CPython's
    semantics: `find`, `in`, `split(sep)` (left-to-right, non-overlapping),
    `sep.join`, `strip()` and an ASCII-only `capitalize()`. */
module PyStr {
  import opened Wrappers

  /** `t` occurs in `s` starting at index `i`. */
  predicate OccursAt(s: string, t: string, i: int) {
    0 <= i && i + |t| <= |s| && s[i..i + |t|] == t
  }

  /** Dropping the first character shifts every occurrence one place left. */
  lemma ShiftOccurs(s: string, t: string)
    requires |s| > 0
    ensures forall i :: 0 <= i ==> (OccursAt(s[1..], t, i) <==> OccursAt(s, t, i + 1))
    ensures forall i :: 1 <= i ==> (OccursAt(s, t, i) <==> OccursAt(s[1..], t, i - 1))
  {
    forall i | 0 <= i
      ensures OccursAt(s[1..], t, i) <==> OccursAt(s, t, i + 1)
    {
      if i + |t| <= |s| - 1 {
        assert s[1..][i..i + |t|] == s[i + 1..i + 1 + |t|];
      }
    }
  }

  /** `s.find(t)` with `None` standing for -1: the first index at which `t`
      occurs in `s`. */
  function Find(s: string, t: string): (r: Option<nat>)
    requires |t| > 0
    ensures r.Some? ==> OccursAt(s, t, r.value)
    ensures r.Some? ==> forall i :: 0 <= i < r.value ==> !OccursAt(s, t, i)
    ensures r.None? ==> forall i :: !OccursAt(s, t, i)
    decreases |s|
  {
    if |s| < |t| then None
    else if s[..|t|] == t then Some(0)
    else
      ShiftOccurs(s, t);
      match Find(s[1..], t)
      case None => None
      case Some(k) => Some(k + 1)
  }

  /** The first occurrence is the one `Find` reports. */
  lemma FindIs(s: string, t: string, k: nat)
    requires |t| > 0
    requires OccursAt(s, t, k)
    requires forall i :: 0 <= i < k ==> !OccursAt(s, t, i)
    ensures Find(s, t) == Some(k)
  {
  }

  /** Python's `t in s` for a non-empty `t`. */
  predicate Contains(s: string, t: string)
    requires |t| > 0
  {
    Find(s, t).Some?
  }

  /** A single character is contained exactly when it is an element. */
  lemma ContainsChar(s: string, c: char)
    ensures Contains(s, [c]) <==> c in s
  {
    if c in s {
      var i :| 0 <= i < |s| && s[i] == c;
      assert OccursAt(s, [c], i);
    }
    if Contains(s, [c]) {
      var k := Find(s, [c]).value;
      assert s[k..k + 1][0] == c;
    }
  }

  /** `sep.join(parts)`. */
  function Join(parts: seq<string>, sep: string): string
    decreases |parts|
  {
    if |parts| == 0 then ""
    else if |parts| == 1 then parts[0]
    else parts[0] + sep + Join(parts[1..], sep)
  }

  /** Joining splits off at the last separator as well as at the first. */
  lemma {:induction false} JoinSnoc(parts: seq<string>, sep: string)
    requires |parts| >= 2
    ensures Join(parts, sep) == Join(parts[..|parts| - 1], sep) + sep + parts[|parts| - 1]
    decreases |parts|
  {
    if |parts| > 2 {
      JoinSnoc(parts[1..], sep);
      assert parts[1..][..|parts| - 2] == parts[..|parts| - 1][1..];
    } else {
      assert parts[..1] == [parts[0]];
    }
  }

  /** The joined string is empty exactly when there is nothing to join or
      the only part is empty. */
  lemma JoinEmptyIff(parts: seq<string>, sep: string)
    requires |sep| > 0
    ensures Join(parts, sep) == "" <==> (|parts| == 0 || parts == [""])
  {
    if |parts| == 1 {
      assert parts == [parts[0]];
    }
  }

  /** With two or more parts the separator sits right after the first part. */
  lemma JoinHasSeparator(parts: seq<string>, sep: string)
    requires |parts| >= 2
    ensures OccursAt(Join(parts, sep), sep, |parts[0]|)
  {
    var j := Join(parts, sep);
    assert j == parts[0] + sep + Join(parts[1..], sep);
    assert j[|parts[0]|..|parts[0]| + |sep|] == sep;
  }

  /** `s.split(sep)`: cut at the first occurrence, then split the rest. */
  function Split(s: string, sep: string): (parts: seq<string>)
    requires |sep| > 0
    ensures |parts| >= 1
    decreases |s|
  {
    match Find(s, sep)
    case None => [s]
    case Some(i) => [s[..i]] + Split(s[i + |sep|..], sep)
  }

  /** Splitting cuts at the first occurrence. */
  lemma SplitAtFirst(s: string, sep: string, i: nat)
    requires |sep| > 0
    requires Find(s, sep) == Some(i)
    ensures Split(s, sep) == [s[..i]] + Split(s[i + |sep|..], sep)
  {
  }

  /** Without an occurrence there is a single part. */
  lemma SplitNoSeparator(s: string, sep: string)
    requires |sep| > 0
    requires Find(s, sep) == None
    ensures Split(s, sep) == [s]
  {
  }

  /** A prefix that ends before the first occurrence holds no occurrence. */
  lemma PrefixBeforeFirst(s: string, sep: string, i: nat)
    requires |sep| > 0
    requires i <= |s|
    requires forall j :: 0 <= j < i ==> !OccursAt(s, sep, j)
    ensures !Contains(s[..i], sep)
  {
    if Contains(s[..i], sep) {
      var j := Find(s[..i], sep).value;
      assert s[..i][j..j + |sep|] == s[j..j + |sep|];
      assert OccursAt(s, sep, j);
      assert false;
    }
  }

  /** Splitting is undone by joining with the same separator. */
  lemma {:induction false} SplitJoin(s: string, sep: string)
    requires |sep| > 0
    ensures Join(Split(s, sep), sep) == s
    decreases |s|
  {
    match Find(s, sep)
    case None =>
    case Some(i) =>
      var rest := s[i + |sep|..];
      var tail := Split(rest, sep);
      SplitJoin(rest, sep);
      assert Split(s, sep) == [s[..i]] + tail;
      assert Join([s[..i]] + tail, sep) == s[..i] + sep + Join(tail, sep) by {
        assert ([s[..i]] + tail)[1..] == tail;
      }
      assert s[i..i + |sep|] == sep;
      assert s == s[..i] + sep + rest;
  }

  /** No part of a split contains the separator. */
  lemma {:induction false} SplitPartsFree(s: string, sep: string)
    requires |sep| > 0
    ensures forall k :: 0 <= k < |Split(s, sep)| ==> !Contains(Split(s, sep)[k], sep)
    decreases |s|
  {
    match Find(s, sep)
    case None =>
    case Some(i) =>
      var rest := s[i + |sep|..];
      SplitPartsFree(rest, sep);
      PrefixBeforeFirst(s, sep, i);
      var parts := Split(s, sep);
      assert parts[0] == s[..i] && parts[1..] == Split(rest, sep);
      forall k | 0 <= k < |parts|
        ensures !Contains(parts[k], sep)
      {
        if k > 0 {
          assert parts[k] == Split(rest, sep)[k - 1];
        }
      }
  }

  /** The last element of a non-empty sequence: Python's `xs[-1]`. */
  function Last<T>(xs: seq<T>): T
    requires |xs| > 0
  {
    xs[|xs| - 1]
  }

  /** `s.split(sep)[-1]` is what follows the last occurrence of `sep`, or the
      whole string when `sep` does not occur. */
  lemma {:induction false} SplitLast(s: string, sep: string)
    requires |sep| > 0
    ensures !Contains(Last(Split(s, sep)), sep)
    ensures !Contains(s, sep) ==> Last(Split(s, sep)) == s
    ensures Contains(s, sep) ==>
      exists i :: OccursAt(s, sep, i) && Last(Split(s, sep)) == s[i + |sep|..]
  {
    var parts := Split(s, sep);
    SplitJoin(s, sep);
    SplitPartsFree(s, sep);
    assert !Contains(parts[|parts| - 1], sep);
    if |parts| == 1 {
      assert Join(parts, sep) == parts[0];
    } else {
      JoinSnoc(parts, sep);
      var head := Join(parts[..|parts| - 1], sep);
      assert s == head + sep + Last(parts);
      assert s[|head|..|head| + |sep|] == sep;
      assert OccursAt(s, sep, |head|);
      assert s[|head| + |sep|..] == Last(parts);
    }
  }

  /** The characters Python's `str.isspace()` accepts. */
  const Whitespace: set<char> := {
    '\t', '\n', '\U{0B}', '\U{0C}', '\r', '\U{1C}', '\U{1D}', '\U{1E}', '\U{1F}', ' ',
    '\U{85}', '\U{A0}', '\U{1680}', '\U{2000}', '\U{2001}', '\U{2002}', '\U{2003}',
    '\U{2004}', '\U{2005}', '\U{2006}', '\U{2007}', '\U{2008}', '\U{2009}', '\U{200A}',
    '\U{2028}', '\U{2029}', '\U{202F}', '\U{205F}', '\U{3000}'
  }

  predicate IsSpace(c: char) {
    c in Whitespace
  }

  /** `s.lstrip()`: the suffix left after the maximal run of leading
      whitespace. */
  function TrimLeft(s: string): (r: string)
    ensures |r| <= |s| && r == s[|s| - |r|..]
    ensures forall i :: 0 <= i < |s| - |r| ==> IsSpace(s[i])
    ensures |r| > 0 ==> !IsSpace(r[0])
    decreases |s|
  {
    if |s| > 0 && IsSpace(s[0]) then TrimLeft(s[1..]) else s
  }

  /** `s.rstrip()`: the prefix left after the maximal run of trailing
      whitespace. */
  function TrimRight(s: string): (r: string)
    ensures |r| <= |s| && r == s[..|r|]
    ensures forall i :: |r| <= i < |s| ==> IsSpace(s[i])
    ensures |r| > 0 ==> !IsSpace(r[|r| - 1])
    decreases |s|
  {
    if |s| > 0 && IsSpace(s[|s| - 1]) then TrimRight(s[..|s| - 1]) else s
  }

  /** `s.strip()`. */
  function Strip(s: string): string {
    TrimRight(TrimLeft(s))
  }

  /** A string strips to nothing exactly when every character is whitespace. */
  lemma StripEmptyIffBlank(s: string)
    ensures Strip(s) == "" <==> forall i :: 0 <= i < |s| ==> IsSpace(s[i])
  {
    var l := TrimLeft(s);
    if |l| > 0 {
      assert !IsSpace(l[0]);
      assert |TrimRight(l)| > 0;
      assert s[|s| - |l|] == l[0];
    }
  }

  function UpperAscii(c: char): char {
    if 'a' <= c <= 'z' then (c as int - 32) as char else c
  }

  function LowerAscii(c: char): char {
    if 'A' <= c <= 'Z' then (c as int + 32) as char else c
  }

  /** `s.capitalize()` restricted to ASCII letters: the first character
      upper-cased, the rest lower-cased, every other character unchanged. */
  function Capitalize(s: string): (r: string)
    ensures |r| == |s|
    ensures |s| > 0 ==> !('a' <= r[0] <= 'z')
    ensures forall i :: 1 <= i < |r| ==> !('A' <= r[i] <= 'Z')
    ensures forall i :: 0 <= i < |s| ==> LowerAscii(r[i]) == LowerAscii(s[i])
  {
    if |s| == 0 then ""
    else [UpperAscii(s[0])] + seq(|s| - 1, i requires 0 <= i < |s| - 1 => LowerAscii(s[i + 1]))
  }
}

=== FILE: pyvalue.dfy ===
/** The JSON-shaped values that flow through the pipeline, with Python's
    notion of truthiness and the dictionary look-ups the code uses. */
module PyValue {

  /** A decoded JSON value as Python holds it. */
  datatype Value =
    | Null
    | Bool(b: bool)
    | Int(i: int)
    | Float(x: real)
    | Str(s: string)
    | List(items: seq<Value>)
    | Dict(fields: map<string, Value>)

  /** A JSON object: every catalog record, folder entry and per-source result. */
  type Record = map<string, Value>

  /** Python truthiness: `None`, `False`, zero, and empty strings, lists and
      dicts are falsy; everything else is truthy. */
  predicate Truthy(v: Value) {
    match v
    case Null => false
    case Bool(b) => b
    case Int(i) => i != 0
    case Float(x) => x != 0.0
    case Str(s) => |s| > 0
    case List(items) => |items| > 0
    case Dict(fields) => |fields| > 0
  }

  /** `r.get(k, default)`. */
  function Get(r: Record, k: string, default: Value): Value {
    if k in r then r[k] else default
  }

  /** `r.get(k)`: a missing key reads as `None`. */
  function Lookup(r: Record, k: string): Value {
    Get(r, k, Null)
  }

  /** Python's `a or b`. */
  function Or(a: Value, b: Value): Value {
    if Truthy(a) then a else b
  }
}

=== FILE: reconcile.dfy ===
/** The reconciliation pass of `check1.py`: diff the folder listing against
    the stored catalog by `name`, append fetched records for new names under
    fresh ids, drop the records whose name left the listing, and decide
    between "nothing new" and "write the catalog". */
module Reconciler {
  import opened Wrappers
  import opened PyValue
  import opened PyStr

  /** `anime.get('name')`. */
  function NameOf(r: Record): Value {
    Lookup(r, "name")
  }

  /** `{anime.get('name') for anime in xs if anime.get('name')}`; the keys of
      `db_anime_dict` are the same set. */
  function Names(xs: seq<Record>): (ns: set<Value>)
    ensures forall n :: n in ns ==> Truthy(n)
    ensures forall i :: 0 <= i < |xs| && Truthy(NameOf(xs[i])) ==> NameOf(xs[i]) in ns
  {
    set i | 0 <= i < |xs| && Truthy(NameOf(xs[i])) :: NameOf(xs[i])
  }

  /** A name is listed exactly when some record carries it and it is truthy. */
  lemma NamesMember(xs: seq<Record>, n: Value)
    ensures n in Names(xs) <==> Truthy(n) && exists i :: 0 <= i < |xs| && NameOf(xs[i]) == n
  {
  }

  /** The names of two lists together. */
  lemma NamesOfAppend(xs: seq<Record>, ys: seq<Record>)
    ensures Names(xs + ys) == Names(xs) + Names(ys)
  {
    forall n | n in Names(xs + ys)
      ensures n in Names(xs) + Names(ys)
    {
      NamesMember(xs + ys, n);
      var i :| 0 <= i < |xs + ys| && NameOf((xs + ys)[i]) == n;
      if i < |xs| {
        assert (xs + ys)[i] == xs[i];
        NamesMember(xs, n);
      } else {
        assert (xs + ys)[i] == ys[i - |xs|];
        NamesMember(ys, n);
      }
    }
    forall n | n in Names(xs)
      ensures n in Names(xs + ys)
    {
      NamesMember(xs, n);
      var i :| 0 <= i < |xs| && NameOf(xs[i]) == n;
      assert (xs + ys)[i] == xs[i];
      NamesMember(xs + ys, n);
    }
    forall n | n in Names(ys)
      ensures n in Names(xs + ys)
    {
      NamesMember(ys, n);
      var i :| 0 <= i < |ys| && NameOf(ys[i]) == n;
      assert (xs + ys)[|xs| + i] == ys[i];
      NamesMember(xs + ys, n);
    }
  }

  /** The three name sets of one pass. */
  datatype Diff = Diff(added: set<Value>, kept: set<Value>, removed: set<Value>)

  /** `new_anime_names`, `unchanged_anime_names` and `deleted_anime_names`:
      every listed or stored name falls in exactly one of them. */
  function Classify(cloud: seq<Record>, db: seq<Record>): (d: Diff)
    ensures d.added + d.kept == Names(cloud)
    ensures d.kept + d.removed == Names(db)
    ensures d.added !! d.kept && d.kept !! d.removed && d.added !! d.removed
    ensures d.added + d.kept + d.removed == Names(cloud) + Names(db)
  {
    var c, b := Names(cloud), Names(db);
    Diff(c - b, c * b, b - c)
  }

  /** `anime.get('aid', 0)` can take part in `max` and `+ 1`. */
  predicate IntAid(r: Record) {
    "aid" in r ==> r["aid"].Int?
  }

  predicate AidsAreInts(db: seq<Record>) {
    forall i :: 0 <= i < |db| ==> IntAid(db[i])
  }

  /** `anime.get('aid', 0)`. */
  function AidOf(r: Record): int
    requires IntAid(r)
  {
    if "aid" in r then r["aid"].i else 0
  }

  /** `max(set(aids))`: the largest id, absent ids counting as 0. */
  function MaxAid(db: seq<Record>): (m: int)
    requires |db| > 0 && AidsAreInts(db)
    ensures forall i :: 0 <= i < |db| ==> AidOf(db[i]) <= m
    ensures exists i :: 0 <= i < |db| && AidOf(db[i]) == m
    decreases |db|
  {
    if |db| == 1 then AidOf(db[0])
    else
      var rest := MaxAid(db[1..]);
      assert forall i :: 1 <= i < |db| ==> db[i] == db[1..][i - 1];
      if AidOf(db[0]) >= rest then AidOf(db[0]) else rest
  }

  /** `generate_new_aid`: 1 for an empty catalog, otherwise one more than the
      largest id, which is above every id in the catalog. */
  function GenerateNewAid(db: seq<Record>): (aid: int)
    requires AidsAreInts(db)
    ensures |db| == 0 ==> aid == 1
    ensures forall i :: 0 <= i < |db| ==> AidOf(db[i]) < aid
    ensures |db| > 0 ==> exists i :: 0 <= i < |db| && aid == AidOf(db[i]) + 1
  {
    if |db| == 0 then 1 else MaxAid(db) + 1
  }

  /** A record without its id. */
  function WithoutAid(r: Record): Record {
    r - {"aid"}
  }

  /** `anime['aid'] = new_aid` on every fetched record. */
  function Stamp(data: seq<Record>, aid: int): (s: seq<Record>)
    ensures |s| == |data|
    ensures forall i :: 0 <= i < |s| ==> "aid" in s[i] && s[i]["aid"] == Int(aid)
    ensures forall i :: 0 <= i < |s| ==> WithoutAid(s[i]) == WithoutAid(data[i])
  {
    seq(|data|, i requires 0 <= i < |data| => data[i]["aid" := Int(aid)])
  }

  /** `[anime for anime in cloud_data if anime.get('name') == name]`. */
  function EntriesNamed(cloud: seq<Record>, n: Value): (es: seq<Record>)
    ensures forall r :: r in es <==> r in cloud && NameOf(r) == n
    ensures |es| <= |cloud|
    decreases |cloud|
  {
    if |cloud| == 0 then []
    else
      var rest := EntriesNamed(cloud[..|cloud| - 1], n);
      assert forall r :: r in cloud <==> r in cloud[..|cloud| - 1] || r == cloud[|cloud| - 1];
      if NameOf(cloud[|cloud| - 1]) == n then rest + [cloud[|cloud| - 1]] else rest
  }

  /** The listing filter goes entry by entry: the entries of a concatenation
      are the entries of each part, in listing order, duplicates kept. */
  lemma {:induction false} EntriesNamedAppend(xs: seq<Record>, ys: seq<Record>, n: Value)
    ensures EntriesNamed(xs + ys, n) == EntriesNamed(xs, n) + EntriesNamed(ys, n)
    decreases |ys|
  {
    if |ys| > 0 {
      var zs := ys[..|ys| - 1];
      EntriesNamedAppend(xs, zs, n);
      assert (xs + ys)[..|xs + ys| - 1] == xs + zs;
      assert (xs + ys)[|xs + ys| - 1] == ys[|ys| - 1];
    } else {
      assert xs + ys == xs;
    }
  }

  /** A single listing entry is selected exactly when it carries the name. */
  lemma EntriesNamedSingle(r: Record, n: Value)
    ensures EntriesNamed([r], n) == if NameOf(r) == n then [r] else []
  {
    assert [r][..0] == [];
  }

  /** One iteration of the new-names loop: fetch the listing entries of the
      name and, when anything came back, append it under the next free id. */
  function Step(cloud: seq<Record>, fetch: seq<Record> -> seq<Record>, acc: seq<Record>, n: Value): (next: seq<Record>)
    requires AidsAreInts(acc)
    ensures AidsAreInts(next)
    ensures |next| == |acc| + |fetch(EntriesNamed(cloud, n))|
    ensures next[..|acc|] == acc
    ensures forall j :: |acc| <= j < |next| ==>
      && "aid" in next[j] && next[j]["aid"] == Int(GenerateNewAid(acc))
      && WithoutAid(next[j]) == WithoutAid(fetch(EntriesNamed(cloud, n))[j - |acc|])
  {
    var data := fetch(EntriesNamed(cloud, n));
    if |data| == 0 then acc
    else
      var aid := GenerateNewAid(acc);
      StampedAfter(acc, data, aid);
      acc + Stamp(data, aid)
  }

  /** Stamped records appended after `acc` leave `acc` in front and carry the
      given id. */
  lemma StampedAfter(acc: seq<Record>, data: seq<Record>, aid: int)
    requires AidsAreInts(acc)
    ensures AidsAreInts(acc + Stamp(data, aid))
    ensures (acc + Stamp(data, aid))[..|acc|] == acc
    ensures forall j :: |acc| <= j < |acc| + |data| ==>
      && "aid" in (acc + Stamp(data, aid))[j] && (acc + Stamp(data, aid))[j]["aid"] == Int(aid)
      && WithoutAid((acc + Stamp(data, aid))[j]) == WithoutAid(data[j - |acc|])
  {
    var s := Stamp(data, aid);
    assert forall j :: |acc| <= j < |acc| + |data| ==> (acc + s)[j] == s[j - |acc|];
    assert forall j :: 0 <= j < |acc| ==> (acc + s)[j] == acc[j];
  }

  /** The new-names loop over the names in iteration order. */
  function AppendNew(cloud: seq<Record>, fetch: seq<Record> -> seq<Record>, acc: seq<Record>, order: seq<Value>): (res: seq<Record>)
    requires AidsAreInts(acc)
    ensures AidsAreInts(res)
    decreases |order|
  {
    if |order| == 0 then acc
    else AppendNew(cloud, fetch, Step(cloud, fetch, acc, order[0]), order[1..])
  }

  /** Everything fetched for the names, in iteration order. */
  function AllFetched(cloud: seq<Record>, fetch: seq<Record> -> seq<Record>, order: seq<Value>): seq<Record>
    decreases |order|
  {
    if |order| == 0 then []
    else fetch(EntriesNamed(cloud, order[0])) + AllFetched(cloud, fetch, order[1..])
  }

  /** Nothing was fetched exactly when every name fetched nothing. */
  lemma {:induction false} AllFetchedEmpty(cloud: seq<Record>, fetch: seq<Record> -> seq<Record>, order: seq<Value>)
    ensures AllFetched(cloud, fetch, order) == [] <==>
      forall k :: 0 <= k < |order| ==> fetch(EntriesNamed(cloud, order[k])) == []
    decreases |order|
  {
    if |order| > 0 {
      AllFetchedEmpty(cloud, fetch, order[1..]);
      assert forall k :: 1 <= k < |order| ==> order[k] == order[1..][k - 1];
    }
  }

  /** `res` is `acc` followed by the records of `data`, each with an id. */
  predicate Extends(acc: seq<Record>, res: seq<Record>, data: seq<Record>) {
    && |res| == |acc| + |data|
    && res[..|acc|] == acc
    && forall j :: |acc| <= j < |res| ==> "aid" in res[j] && WithoutAid(res[j]) == WithoutAid(data[j - |acc|])
  }

  lemma ExtendsCompose(a: seq<Record>, b: seq<Record>, c: seq<Record>, d1: seq<Record>, d2: seq<Record>)
    requires Extends(a, b, d1) && Extends(b, c, d2)
    ensures Extends(a, c, d1 + d2)
  {
    assert c[..|a|] == c[..|b|][..|a|];
    forall j | |a| <= j < |c|
      ensures "aid" in c[j] && WithoutAid(c[j]) == WithoutAid((d1 + d2)[j - |a|])
    {
      if j < |b| {
        assert c[j] == c[..|b|][j] == b[j];
        assert (d1 + d2)[j - |a|] == d1[j - |a|];
      } else {
        assert (d1 + d2)[j - |a|] == d2[j - |b|];
      }
    }
  }

  /** The loop keeps the catalog as a prefix and appends what was fetched,
      record for record, each with an id added. */
  lemma {:induction false} AppendNewContent(cloud: seq<Record>, fetch: seq<Record> -> seq<Record>,
                                            acc: seq<Record>, order: seq<Value>)
    requires AidsAreInts(acc)
    ensures Extends(acc, AppendNew(cloud, fetch, acc, order), AllFetched(cloud, fetch, order))
    decreases |order|
  {
    if |order| == 0 {
      assert acc[..|acc|] == acc;
    } else {
      var next := Step(cloud, fetch, acc, order[0]);
      var data := fetch(EntriesNamed(cloud, order[0]));
      AppendNewContent(cloud, fetch, next, order[1..]);
      assert Extends(acc, next, data);
      ExtendsCompose(acc, next, AppendNew(cloud, fetch, next, order[1..]), data, AllFetched(cloud, fetch, order[1..]));
    }
  }

  /** `res` keeps `acc` as a prefix; every record after it has an id above
      every id in `acc`, and ids never decrease from there on. */
  predicate FreshTail(acc: seq<Record>, res: seq<Record>)
    requires AidsAreInts(res)
  {
    && |acc| <= |res| && res[..|acc|] == acc
    && (forall j :: |acc| <= j < |res| ==> "aid" in res[j])
    && (forall i, j :: 0 <= i < |acc| <= j < |res| ==> AidOf(res[i]) < AidOf(res[j]))
    && (forall i, j :: 0 <= i < j < |res| && |acc| <= j ==> AidOf(res[i]) <= AidOf(res[j]))
  }

  lemma StepFresh(cloud: seq<Record>, fetch: seq<Record> -> seq<Record>, acc: seq<Record>, n: Value)
    requires AidsAreInts(acc)
    ensures FreshTail(acc, Step(cloud, fetch, acc, n))
  {
    var next := Step(cloud, fetch, acc, n);
    var g := GenerateNewAid(acc);
    forall j | |acc| <= j < |next|
      ensures AidOf(next[j]) == g
    {
    }
    forall i | 0 <= i < |acc|
      ensures next[i] == acc[i]
    {
      assert next[i] == next[..|acc|][i];
    }
  }

  lemma FreshCompose(a: seq<Record>, b: seq<Record>, c: seq<Record>)
    requires AidsAreInts(b) && AidsAreInts(c)
    requires FreshTail(a, b) && FreshTail(b, c)
    ensures FreshTail(a, c)
  {
    assert c[..|a|] == c[..|b|][..|a|];
    forall i, j | 0 <= i < j < |c| && |a| <= j
      ensures AidOf(c[i]) <= AidOf(c[j])
      ensures i < |a| ==> AidOf(c[i]) < AidOf(c[j])
    {
      if j < |b| {
        assert c[j] == c[..|b|][j] == b[j];
        assert c[i] == c[..|b|][i] == b[i];
      } else if i < |b| {
        assert c[i] == c[..|b|][i] == b[i];
      }
    }
  }

  /** Ids handed out by the loop: every appended record has an id above every
      id already in the catalog, and ids never decrease along the result. */
  lemma {:induction false} AppendNewAids(cloud: seq<Record>, fetch: seq<Record> -> seq<Record>,
                                         acc: seq<Record>, order: seq<Value>)
    requires AidsAreInts(acc)
    ensures FreshTail(acc, AppendNew(cloud, fetch, acc, order))
    decreases |order|
  {
    if |order| == 0 {
      assert acc[..|acc|] == acc;
    } else {
      var next := Step(cloud, fetch, acc, order[0]);
      StepFresh(cloud, fetch, acc, order[0]);
      AppendNewAids(cloud, fetch, next, order[1..]);
      FreshCompose(acc, next, AppendNew(cloud, fetch, next, order[1..]));
    }
  }

  /** Running the loop over one order and then another is running it over
      both. */
  lemma {:induction false} AppendNewConcat(cloud: seq<Record>, fetch: seq<Record> -> seq<Record>,
                                           acc: seq<Record>, o1: seq<Value>, o2: seq<Value>)
    requires AidsAreInts(acc)
    ensures AppendNew(cloud, fetch, acc, o1 + o2) == AppendNew(cloud, fetch, AppendNew(cloud, fetch, acc, o1), o2)
    decreases |o1|
  {
    if |o1| == 0 {
      assert o1 + o2 == o2;
    } else {
      assert (o1 + o2)[0] == o1[0] && (o1 + o2)[1..] == o1[1..] + o2;
      AppendNewConcat(cloud, fetch, Step(cloud, fetch, acc, o1[0]), o1[1..], o2);
    }
  }

  /** The id the loop hands the `k`-th name: the next free id once the names
      before it are done. */
  function NameAid(cloud: seq<Record>, fetch: seq<Record> -> seq<Record>, acc: seq<Record>,
                   order: seq<Value>, k: nat): int
    requires AidsAreInts(acc) && k <= |order|
  {
    GenerateNewAid(AppendNew(cloud, fetch, acc, order[..k]))
  }

  /** The records fetched for the `k`-th name sit in the loop's result right
      after what the earlier names produced, each with that name's id. */
  lemma AppendNewNameBlock(cloud: seq<Record>, fetch: seq<Record> -> seq<Record>,
                           acc: seq<Record>, order: seq<Value>, k: nat)
    requires AidsAreInts(acc) && k < |order|
    ensures var before := AppendNew(cloud, fetch, acc, order[..k]);
      var res := AppendNew(cloud, fetch, acc, order);
      var data := fetch(EntriesNamed(cloud, order[k]));
      && |before| + |data| <= |res| && res[..|before|] == before
      && forall j :: |before| <= j < |before| + |data| ==>
           && "aid" in res[j] && res[j]["aid"] == Int(NameAid(cloud, fetch, acc, order, k))
           && WithoutAid(res[j]) == WithoutAid(data[j - |before|])
  {
    var before := AppendNew(cloud, fetch, acc, order[..k]);
    var after := AppendNew(cloud, fetch, acc, order[..k + 1]);
    var res := AppendNew(cloud, fetch, acc, order);
    AppendNewLast(cloud, fetch, acc, order, k);
    assert order[..k + 1] + order[k + 1..] == order;
    AppendNewPrefix(cloud, fetch, acc, order[..k + 1], order[k + 1..]);
    BlockInPrefix(before, after, res, fetch(EntriesNamed(cloud, order[k])), GenerateNewAid(before));
  }

  /** A block of stamped records at the end of `after` stays in place when
      `after` is a prefix of `res`. */
  lemma BlockInPrefix(before: seq<Record>, after: seq<Record>, res: seq<Record>, data: seq<Record>, aid: int)
    requires |before| + |data| == |after| <= |res|
    requires res[..|after|] == after && after[..|before|] == before
    requires forall j :: |before| <= j < |after| ==>
      "aid" in after[j] && after[j]["aid"] == Int(aid) && WithoutAid(after[j]) == WithoutAid(data[j - |before|])
    ensures res[..|before|] == before
    ensures forall j :: |before| <= j < |before| + |data| ==>
      "aid" in res[j] && res[j]["aid"] == Int(aid) && WithoutAid(res[j]) == WithoutAid(data[j - |before|])
  {
    assert res[..|before|] == res[..|after|][..|before|];
    forall j | |before| <= j < |after|
      ensures res[j] == after[j]
    {
      assert res[j] == res[..|after|][j];
    }
  }

  /** The loop over the first `k + 1` names is one more step after the loop
      over the first `k`. */
  lemma AppendNewLast(cloud: seq<Record>, fetch: seq<Record> -> seq<Record>,
                      acc: seq<Record>, order: seq<Value>, k: nat)
    requires AidsAreInts(acc) && k < |order|
    ensures AppendNew(cloud, fetch, acc, order[..k + 1])
      == Step(cloud, fetch, AppendNew(cloud, fetch, acc, order[..k]), order[k])
  {
    assert order[..k + 1] == order[..k] + [order[k]];
    AppendNewConcat(cloud, fetch, acc, order[..k], [order[k]]);
    assert [order[k]][1..] == [];
  }

  /** The loop over a longer order keeps the result of a prefix of it in
      front. */
  lemma AppendNewPrefix(cloud: seq<Record>, fetch: seq<Record> -> seq<Record>,
                        acc: seq<Record>, o1: seq<Value>, o2: seq<Value>)
    requires AidsAreInts(acc)
    ensures var p := AppendNew(cloud, fetch, acc, o1);
      var res := AppendNew(cloud, fetch, acc, o1 + o2);
      |p| <= |res| && res[..|p|] == p
  {
    AppendNewConcat(cloud, fetch, acc, o1, o2);
    AppendNewContent(cloud, fetch, AppendNew(cloud, fetch, acc, o1), o2);
  }

  /** A name that fetched something gets an id below the id of every later
      name: ids handed out by the loop are distinct and increasing. */
  lemma NameAidsIncrease(cloud: seq<Record>, fetch: seq<Record> -> seq<Record>,
                         acc: seq<Record>, order: seq<Value>, k: nat, k': nat)
    requires AidsAreInts(acc) && k < k' <= |order|
    requires fetch(EntriesNamed(cloud, order[k])) != []
    ensures NameAid(cloud, fetch, acc, order, k) < NameAid(cloud, fetch, acc, order, k')
  {
    var prefix := order[..k'];
    assert prefix[..k] == order[..k] && prefix[k] == order[k];
    AppendNewNameBlock(cloud, fetch, acc, prefix, k);
    var before := AppendNew(cloud, fetch, acc, order[..k]);
    var mid := AppendNew(cloud, fetch, acc, prefix);
    assert AidOf(mid[|before|]) == NameAid(cloud, fetch, acc, order, k);
  }

  /** `[anime for anime in xs if anime.get('name') != name]`. */
  function RemoveNamed(xs: seq<Record>, n: Value): (ys: seq<Record>)
    ensures forall r :: r in ys <==> r in xs && NameOf(r) != n
    ensures |ys| <= |xs|
    decreases |xs|
  {
    if |xs| == 0 then []
    else
      var rest := RemoveNamed(xs[..|xs| - 1], n);
      assert forall r :: r in xs <==> r in xs[..|xs| - 1] || r == xs[|xs| - 1];
      if NameOf(xs[|xs| - 1]) != n then rest + [xs[|xs| - 1]] else rest
  }

  /** The deleted-names loop over the names in iteration order. */
  function RemoveAll(xs: seq<Record>, order: seq<Value>): (ys: seq<Record>)
    ensures forall r :: r in ys <==> r in xs && NameOf(r) !in Elems(order)
    decreases |order|
  {
    if |order| == 0 then xs else RemoveAll(RemoveNamed(xs, order[0]), order[1..])
  }

  /** Reference definition of the deletion: keep, in order, the records whose
      name is not in `s`. */
  function Keep(xs: seq<Record>, s: set<Value>): (ys: seq<Record>)
    ensures forall r :: r in ys <==> r in xs && NameOf(r) !in s
    ensures |ys| <= |xs|
    decreases |xs|
  {
    if |xs| == 0 then []
    else
      var rest := Keep(xs[..|xs| - 1], s);
      assert forall r :: r in xs <==> r in xs[..|xs| - 1] || r == xs[|xs| - 1];
      if NameOf(xs[|xs| - 1]) !in s then rest + [xs[|xs| - 1]] else rest
  }

  /** Keeping nothing out leaves the list as it is. */
  lemma {:induction false} KeepNothing(xs: seq<Record>)
    ensures Keep(xs, {}) == xs
    decreases |xs|
  {
    if |xs| > 0 {
      KeepNothing(xs[..|xs| - 1]);
    }
  }

  /** Filtering distributes over concatenation. */
  lemma {:induction false} KeepAppend(xs: seq<Record>, ys: seq<Record>, s: set<Value>)
    ensures Keep(xs + ys, s) == Keep(xs, s) + Keep(ys, s)
    decreases |ys|
  {
    if |ys| > 0 {
      var zs := ys[..|ys| - 1];
      KeepAppend(xs, zs, s);
      assert (xs + ys)[..|xs + ys| - 1] == xs + zs;
    } else {
      assert xs + ys == xs;
    }
  }

  /** Removing one name, then a set of names, is removing their union. */
  lemma {:induction false} KeepRemoveNamed(xs: seq<Record>, s: set<Value>, n: Value)
    ensures Keep(RemoveNamed(xs, n), s) == Keep(xs, s + {n})
    decreases |xs|
  {
    if |xs| > 0 {
      var init := xs[..|xs| - 1];
      var last := xs[|xs| - 1];
      KeepRemoveNamed(init, s, n);
      if NameOf(last) != n {
        KeepAppend(RemoveNamed(init, n), [last], s);
        assert Keep([last], s) == Keep([], s) + (if NameOf(last) !in s then [last] else []) by {
          assert [last][..0] == [];
        }
      }
    }
  }

  /** The names an order visits. */
  function Elems(order: seq<Value>): set<Value> {
    set n | n in order
  }

  /** The deletion loop drops exactly the records named by the deleted set,
      whatever the iteration order. */
  lemma {:induction false} RemoveAllIsKeep(xs: seq<Record>, order: seq<Value>)
    ensures RemoveAll(xs, order) == Keep(xs, Elems(order))
    decreases |order|
  {
    if |order| == 0 {
      KeepNothing(xs);
      assert Elems(order) == {};
    } else {
      var rest := RemoveNamed(xs, order[0]);
      RemoveAllIsKeep(rest, order[1..]);
      KeepRemoveNamed(xs, Elems(order[1..]), order[0]);
      assert (Elems(order[1..])) + {order[0]} == Elems(order);
    }
  }

  /** The iteration order visits every element of the set exactly once. */
  predicate Enumerates(order: seq<Value>, s: set<Value>) {
    && (forall i :: 0 <= i < |order| ==> order[i] in s)
    && (forall n :: n in s ==> n in order)
    && (forall i, j :: 0 <= i < j < |order| ==> order[i] != order[j])
  }

  lemma EnumeratedSet(order: seq<Value>, s: set<Value>)
    requires Enumerates(order, s)
    ensures Elems(order) == s
  {
  }

  /** Why a pass stops before diffing. */
  datatype Abort =
    | FetchFailed   // the listing or the stored catalog came back empty
    | BlankDb       // the stored catalog is only whitespace
    | DecodeFailed  // the stored catalog is not JSON

  /** How a pass ends: aborted, handed on unchanged, or written back. */
  datatype Outcome = Aborted(reason: Abort) | NoChange(db: seq<Record>) | Update(db: seq<Record>)

  /** The orders a pass may visit its new and deleted names in. */
  predicate ValidOrders(cloud: seq<Record>, db: seq<Record>, newOrder: seq<Value>, delOrder: seq<Value>) {
    var d := Classify(cloud, db);
    Enumerates(newOrder, d.added) && Enumerates(delOrder, d.removed)
  }

  /** `updated_db_data` at the end of both loops. */
  function Updated(cloud: seq<Record>, db: seq<Record>, newOrder: seq<Value>, delOrder: seq<Value>,
                   fetch: seq<Record> -> seq<Record>): seq<Record>
    requires AidsAreInts(db)
  {
    RemoveAll(AppendNew(cloud, fetch, db, newOrder), delOrder)
  }

  /** Lines 50-106 of `perform_check` on an already decoded catalog: the
      catalog is handed on unchanged exactly when the loops left it equal to
      what was read, and written back otherwise. */
  function Reconcile(cloud: seq<Record>, db: seq<Record>, newOrder: seq<Value>, delOrder: seq<Value>,
                     fetch: seq<Record> -> seq<Record>): (o: Outcome)
    requires AidsAreInts(db)
    requires ValidOrders(cloud, db, newOrder, delOrder)
    ensures !o.Aborted?
    ensures o.NoChange? ==> o.db == db
    ensures o.Update? ==> o.db != db
  {
    var u := Updated(cloud, db, newOrder, delOrder, fetch);
    if u == db then NoChange(u) else Update(u)
  }

  /** Both loops together: the appended catalog without the deleted names. */
  lemma UpdatedIsKeep(cloud: seq<Record>, db: seq<Record>, newOrder: seq<Value>, delOrder: seq<Value>,
                      fetch: seq<Record> -> seq<Record>)
    requires AidsAreInts(db)
    requires ValidOrders(cloud, db, newOrder, delOrder)
    ensures Updated(cloud, db, newOrder, delOrder, fetch)
      == Keep(AppendNew(cloud, fetch, db, newOrder), Classify(cloud, db).removed)
  {
    RemoveAllIsKeep(AppendNew(cloud, fetch, db, newOrder), delOrder);
    EnumeratedSet(delOrder, Classify(cloud, db).removed);
  }

  /** The new-names loop only appends. */
  lemma AppendedSplit(cloud: seq<Record>, fetch: seq<Record> -> seq<Record>, db: seq<Record>, order: seq<Value>)
    requires AidsAreInts(db)
    ensures var a := AppendNew(cloud, fetch, db, order);
      |a| >= |db| && a == db + a[|db|..]
  {
    var a := AppendNew(cloud, fetch, db, order);
    assert [] + order == order;
    AppendNewPrefix(cloud, fetch, db, [], order);
    assert a == a[..|db|] + a[|db|..];
  }

  /** The catalog a pass produces: the stored records whose name was not
      deleted, in their order, then the appended records that survive the
      deletion. Stored records keep their ids and contents. */
  lemma ReconcileShape(cloud: seq<Record>, db: seq<Record>, newOrder: seq<Value>, delOrder: seq<Value>,
                       fetch: seq<Record> -> seq<Record>)
    requires AidsAreInts(db)
    requires ValidOrders(cloud, db, newOrder, delOrder)
    ensures var d := Classify(cloud, db);
      var a := AppendNew(cloud, fetch, db, newOrder);
      && |a| >= |db|
      && Reconcile(cloud, db, newOrder, delOrder, fetch).db == Keep(db, d.removed) + Keep(a[|db|..], d.removed)
  {
    var d := Classify(cloud, db);
    var a := AppendNew(cloud, fetch, db, newOrder);
    UpdatedIsKeep(cloud, db, newOrder, delOrder, fetch);
    AppendedSplit(cloud, fetch, db, newOrder);
    KeepAppend(db, a[|db|..], d.removed);
  }

  /** Every stored record whose name is still listed, or that has no name,
      is in the written catalog unchanged; no record of a deleted name is. */
  lemma ReconcileKeeps(cloud: seq<Record>, db: seq<Record>, newOrder: seq<Value>, delOrder: seq<Value>,
                       fetch: seq<Record> -> seq<Record>)
    requires AidsAreInts(db)
    requires ValidOrders(cloud, db, newOrder, delOrder)
    ensures var d := Classify(cloud, db);
      var out := Reconcile(cloud, db, newOrder, delOrder, fetch).db;
      && (forall r :: r in db && NameOf(r) !in d.removed ==> r in out)
      && (forall r :: r in out ==> NameOf(r) !in d.removed)
  {
    ReconcileShape(cloud, db, newOrder, delOrder, fetch);
  }

  /** A deleted name always changes the catalog: a stored record carries it
      and no record with it survives. */
  lemma DeletionChanges(cloud: seq<Record>, db: seq<Record>, newOrder: seq<Value>, delOrder: seq<Value>,
                        fetch: seq<Record> -> seq<Record>)
    requires AidsAreInts(db)
    requires ValidOrders(cloud, db, newOrder, delOrder)
    requires Classify(cloud, db).removed != {}
    ensures Updated(cloud, db, newOrder, delOrder, fetch) != db
  {
    var d := Classify(cloud, db);
    var a := AppendNew(cloud, fetch, db, newOrder);
    RemoveAllIsKeep(a, delOrder);
    EnumeratedSet(delOrder, d.removed);
    var n :| n in d.removed;
    NamesMember(db, n);
    var i :| 0 <= i < |db| && NameOf(db[i]) == n;
    assert db[i] !in Updated(cloud, db, newOrder, delOrder, fetch);
  }

  /** With nothing deleted, the catalog changes exactly when something was
      fetched. */
  lemma AppendChanges(cloud: seq<Record>, db: seq<Record>, newOrder: seq<Value>, delOrder: seq<Value>,
                      fetch: seq<Record> -> seq<Record>)
    requires AidsAreInts(db)
    requires ValidOrders(cloud, db, newOrder, delOrder)
    requires Classify(cloud, db).removed == {}
    ensures Updated(cloud, db, newOrder, delOrder, fetch) == db <==> AllFetched(cloud, fetch, newOrder) == []
  {
    var a := AppendNew(cloud, fetch, db, newOrder);
    AppendNewContent(cloud, fetch, db, newOrder);
    RemoveAllIsKeep(a, delOrder);
    EnumeratedSet(delOrder, {});
    KeepNothing(a);
    if AllFetched(cloud, fetch, newOrder) == [] {
      assert a == a[..|db|];
    }
  }

  /** The catalog is handed on unchanged exactly when no stored name was
      deleted and nothing was fetched for any new name. */
  lemma NoChangeIff(cloud: seq<Record>, db: seq<Record>, newOrder: seq<Value>, delOrder: seq<Value>,
                    fetch: seq<Record> -> seq<Record>)
    requires AidsAreInts(db)
    requires ValidOrders(cloud, db, newOrder, delOrder)
    ensures var d := Classify(cloud, db);
      Reconcile(cloud, db, newOrder, delOrder, fetch).NoChange? <==>
        (d.removed == {} && forall n :: n in d.added ==> fetch(EntriesNamed(cloud, n)) == [])
  {
    var d := Classify(cloud, db);
    if d.removed != {} {
      DeletionChanges(cloud, db, newOrder, delOrder, fetch);
    } else {
      AppendChanges(cloud, db, newOrder, delOrder, fetch);
      AllFetchedEmpty(cloud, fetch, newOrder);
      EnumeratedSet(newOrder, d.added);
    }
  }

  /** Python's `s.strip() == ""`, stated without stripping. */
  predicate Blank(s: string) {
    forall i :: 0 <= i < |s| ==> IsSpace(s[i])
  }

  /** Lines 33-48 of `perform_check`: the listing and the stored text must
      both be non-empty, the text must not be blank and must decode. */
  function Precheck(cloud: Option<seq<Record>>, dbText: Option<string>,
                    parse: string -> Option<seq<Record>>): (r: Result<(seq<Record>, seq<Record>), Abort>)
    ensures r.Success? <==>
      (&& cloud.Some? && |cloud.value| > 0
       && dbText.Some? && !Blank(dbText.value)
       && parse(dbText.value).Some?)
    ensures r.Success? ==> r.value == (cloud.value, parse(dbText.value).value)
    ensures r == Failure(FetchFailed) <==> cloud.None? || cloud.value == [] || dbText.None? || dbText.value == ""
    ensures r == Failure(BlankDb) <==>
      (&& cloud.Some? && cloud.value != []
       && dbText.Some? && dbText.value != "" && Blank(dbText.value))
  {
    if cloud.None? || |cloud.value| == 0 || dbText.None? || |dbText.value| == 0 then
      Failure(FetchFailed)
    else
      StripEmptyIffBlank(dbText.value);
      if Strip(dbText.value) == "" then Failure(BlankDb)
      else match parse(dbText.value)
        case None => Failure(DecodeFailed)
        case Some(db) => Success((cloud.value, db))
  }

  /** The catalog a successful precheck hands to the diff satisfies what the
      diff needs. */
  predicate Runnable(cloud: Option<seq<Record>>, dbText: Option<string>, parse: string -> Option<seq<Record>>,
                     newOrder: seq<Value>, delOrder: seq<Value>) {
    var p := Precheck(cloud, dbText, parse);
    p.Success? ==> AidsAreInts(p.value.1) && ValidOrders(p.value.0, p.value.1, newOrder, delOrder)
  }

  /** `perform_check`, with the listing, the stored text, the decoder, the
      enrichment and the sets' iteration orders as inputs. It aborts exactly
      when the precheck fails, and hands the catalog on unchanged exactly when
      nothing was deleted and nothing was fetched. */
  function PerformCheck(cloud: Option<seq<Record>>, dbText: Option<string>, parse: string -> Option<seq<Record>>,
                        newOrder: seq<Value>, delOrder: seq<Value>, fetch: seq<Record> -> seq<Record>): (o: Outcome)
    requires Runnable(cloud, dbText, parse, newOrder, delOrder)
    ensures o.Aborted? <==> Precheck(cloud, dbText, parse).Failure?
    ensures o.Aborted? ==> o.reason == Precheck(cloud, dbText, parse).error
    ensures o.NoChange? <==>
      (&& Precheck(cloud, dbText, parse).Success?
       && var d := Classify(cloud.value, parse(dbText.value).value);
          && d.removed == {}
          && forall n :: n in d.added ==> fetch(EntriesNamed(cloud.value, n)) == [])
    ensures o.NoChange? ==> o.db == parse(dbText.value).value
  {
    match Precheck(cloud, dbText, parse)
    case Failure(e) => Aborted(e)
    case Success((c, db)) =>
      NoChangeIff(c, db, newOrder, delOrder, fetch);
      Reconcile(c, db, newOrder, delOrder, fetch)
  }

  /** The inner loop of lines 71-73: stamp each fetched record and append it. */
  method AppendStamped(updated: seq<Record>, data: seq<Record>, aid: int) returns (res: seq<Record>)
    ensures res == updated + Stamp(data, aid)
  {
    res := updated;
    var j := 0;
    while j < |data|
      invariant 0 <= j <= |data|
      invariant res == updated + Stamp(data[..j], aid)
    {
      assert Stamp(data[..j + 1], aid) == Stamp(data[..j], aid) + [data[j]["aid" := Int(aid)]];
      res := res + [data[j]["aid" := Int(aid)]];
      j := j + 1;
    }
    assert data[..j] == data;
  }

  /** The list comprehension of line 83. */
  method RemoveName(xs: seq<Record>, n: Value) returns (kept: seq<Record>)
    ensures kept == RemoveNamed(xs, n)
  {
    kept := [];
    var m := 0;
    while m < |xs|
      invariant 0 <= m <= |xs|
      invariant kept == RemoveNamed(xs[..m], n)
    {
      assert xs[..m + 1][..m] == xs[..m];
      if NameOf(xs[m]) != n {
        kept := kept + [xs[m]];
      }
      m := m + 1;
    }
    assert xs[..m] == xs;
  }

  /** The two loops of `perform_check` as written, list by list. */
  method RunPass(cloud: seq<Record>, db: seq<Record>, newOrder: seq<Value>, delOrder: seq<Value>,
                 fetch: seq<Record> -> seq<Record>) returns (o: Outcome)
    requires AidsAreInts(db)
    requires ValidOrders(cloud, db, newOrder, delOrder)
    ensures o == Reconcile(cloud, db, newOrder, delOrder, fetch)
  {
    var updated := db;
    var i := 0;
    while i < |newOrder|
      invariant 0 <= i <= |newOrder|
      invariant AidsAreInts(updated)
      invariant AppendNew(cloud, fetch, updated, newOrder[i..]) == AppendNew(cloud, fetch, db, newOrder)
    {
      var name := newOrder[i];
      var data := fetch(EntriesNamed(cloud, name));
      ghost var before := updated;
      if |data| > 0 {
        var aid := GenerateNewAid(updated);
        updated := AppendStamped(updated, data, aid);
      }
      assert updated == Step(cloud, fetch, before, name);
      assert newOrder[i..][1..] == newOrder[i + 1..];
      i := i + 1;
    }
    var k := 0;
    while k < |delOrder|
      invariant 0 <= k <= |delOrder|
      invariant RemoveAll(updated, delOrder[k..]) == Updated(cloud, db, newOrder, delOrder, fetch)
    {
      updated := RemoveName(updated, delOrder[k]);
      assert delOrder[k..][1..] == delOrder[k + 1..];
      k := k + 1;
    }
    if updated == db {
      o := NoChange(updated);
    } else {
      o := Update(updated);
    }
  }
}

=== FILE: wrappers.dfy ===
/** Optional values and tagged results, used wherever the system either has a
    value or does not (a missing dictionary key, a source with no data, a
    parse that failed). */
module Wrappers {

  datatype Option<+T> = None | Some(value: T) {

    /** The wrapped value, or `default` when there is none. */
    function GetOr(default: T): T {
      match this
      case Some(v) => v
      case None => default
    }
  }

  datatype Result<+R, +E> = Success(value: R) | Failure(error: E)
}
